=== FILE: README.md ===
# Moderation, user log, self-assignable roles and analytics: a Dafny model

This project models the decision and bookkeeping logic in four cogs of the
Dishwasher and Sangou Discord bots. All Discord traffic is removed. Each command
becomes a pure function from the bot's JSON files (modelled as maps and ordered
association lists) to the new files and an ordered list of abstract effects.

- `moderation.dfy` (`Moderation`) covers `kick`, `ban`, `dban`, `sban`, `unban`,
  `warn`, `note` and `massban`:
  - the guard chain (the issuer, then the bot account, then a current member who
    holds the staff role, then `dban`'s day count);
  - the reason text written to the user log;
  - the effect order: log write, direct message, kick/ban/unban call, channel reply,
    mod-log record.

  The platform's answers are a `World` parameter. This covers the DM outcome, the
  users for whom the kick/ban/unban call raises, and the ids `fetch_user` cannot
  resolve. `Execute` runs a parsed request through its command. Its `corrected`
  flag runs `dban` and `massban` either as written or with the defects under
  "## Findings" repaired; the properties about all commands are proved for both.
- `userlog.dfy` (`UserLog`) covers the per-guild user log:
  - the `add_userlog` append, whose body is not part of this model; its shape is
    an assumption, see below;
  - `clear_event_from_id`;
  - `delete_event_from_id`, with its ordered error checks.
- `userlog_view.dfy` (`UserLogView`) covers what `get_userlog_embed_for_id` selects,
  numbers and colours.
- `tsar.dfy` (`TsarRoles`) covers:
  - the `role` command: lookup, forbidden roles, required roles, minimum days, then
    the add/remove toggle;
  - the `tsar` editor's create, remove and nuke branches, with the wizard's typed
    answers as inputs.
- `analytics.dfy` (`Analytics`) covers the two command listeners, `stats enable`,
  `stats disable`, and the last-ten listing of `stats`.
- `text.dfy` (`Text`) holds the pieces of Python string handling the code relies on:
  `str.lower()`, `str.split()` and `int()`.
- `common.dfy` (`Common`) holds the shared vocabulary.

Assumption about `add_userlog`: `add_userlog(guild, user, issuer, reason, kind)`
does three things:

- It appends one event, stamped with the clock reading and the issuer, to
  `userlog[user][kind]`.
- It creates a record holding all five kinds and an unset watch flag on first use.
- It returns the new length of that list.

`warn` uses the return value as the warn number.

## Model

| member | source | states |
|---|---|---|
| `Text.Lower` | dishwasher/cogs/tsar.py:33 | `str.lower()` keeps the length and lowers every ASCII capital in place |
| `Text.LowerIdempotent` | dishwasher/cogs/tsar.py:245-247 | lowering twice equals lowering once, so the case-insensitive name comparison is an equivalence |
| `Text.Words` | dishwasher/cogs/tsar.py:268 | every token of `str.split()` is non-empty and holds no whitespace |
| `Text.WordsOfToken` | dishwasher/cogs/tsar.py:268 | a non-empty string without whitespace splits into exactly itself |
| `Text.WordsOfBlank` | dishwasher/cogs/tsar.py:268 | a string of whitespace only has no tokens |
| `Text.WordsSplitAtSpace` | dishwasher/cogs/tsar.py:268 | a whitespace character separates: the tokens of `a c b` are the tokens of `a` followed by those of `b`. With the two rows above, this makes the tokens exactly the maximal non-space runs, in order |
| `Text.ParseInt` | dishwasher/cogs/tsar.py:296-297 | `int()` succeeds exactly on an optional sign followed by at least one digit; a leading `-` gives a value at most zero, any other literal a value at least zero |
| `Text.ParseShowNat` | dishwasher/cogs/tsar.py:296 | parsing the decimal rendering of any natural number gives that number back |
| `Text.ParseAll` | dishwasher/cogs/tsar.py:298 | the list comprehension of `int()` succeeds iff every token parses, and then it has one value per token, each that token's parse |
| `UserLog.AddUserlog` | dishwasher/cogs/mod.py:668-678 | the log write appends exactly the given event to one user's list of one kind, returns that list's new length (the warn number), creates the user's record if missing, and changes no other list of any user or guild. The guild's users become the old ones plus this user. An existing user keeps the watch flag and a new record starts unwatched. Every other user's record and every other guild's file is unchanged |
| `UserLog.ClearEvent` | dishwasher/cogs/mod_userlog.py:78-87 | "has no" exactly when the user is absent or the list is empty, and then nothing is written; otherwise that list is emptied and every other list, the watch flag and the set of users are unchanged |
| `UserLog.ClearTwice` | dishwasher/cogs/mod_userlog.py:78-87 | clearing is idempotent: a second clear answers "has no" and changes nothing |
| `UserLog.DeleteEvent` | dishwasher/cogs/mod_userlog.py:89-110 | the four refusals fire exactly on user absent or list empty, `idx > count`, and `idx < 1`, in that order, and write nothing. On success exactly element `idx-1` is removed and the rest keep their order. No other list changes, the guild keeps the same users, the user's watch flag is kept, and every other user's record and every other guild's file is unchanged |
| `UserLog.Summary` | dishwasher/cogs/mod_userlog.py:100-106 | a summary exists exactly for a successful deletion |
| `UserLog.SummaryOfDeletion` | dishwasher/cogs/mod_userlog.py:100-106 | the summary exists exactly when `1 <= idx <= count`, and then carries `idx` with the timestamp, issuer name and reason of the event at that position before the deletion |
| `UserLog.DeleteThenReinsert` | dishwasher/cogs/mod_userlog.py:100-108 | putting the removed event back at its index restores the original list, so the summary describes the event that was deleted |
| `UserLog.DeleteRemovesOneOccurrence` | dishwasher/cogs/mod_userlog.py:108 | deletion takes exactly one occurrence of the removed event out of the list's multiset |
| `UserLog.AppendThenDeleteLast` | dishwasher/cogs/mod_userlog.py:89-110 | logging an event and then deleting at the returned count removes that event and restores every list of every user |
| `UserLogView.WantedNames` | dishwasher/cogs/mod_userlog.py:26-30 | a non-empty single kind name narrows the view to that name; an empty name or any list keeps the default (warns, kicks, bans, with tosses first in the staff view) |
| `UserLogView.Numbered` | dishwasher/cogs/mod_userlog.py:36-50 | entries are numbered from 1 in stored order, with each event's timestamp and reason; the issuer is present exactly in the staff view |
| `UserLogView.Fields` | dishwasher/cogs/mod_userlog.py:32-56 | every field's kind is one of the wanted names, its list is non-empty and it shows that kind's events numbered; together with the lemmas below, fields follow the order of the names and no kind appears twice |
| `UserLogView.FieldsOfOne` | dishwasher/cogs/mod_userlog.py:32-56 | a single wanted name gives exactly one field, that kind's numbered list, when the list is non-empty, and no field otherwise |
| `UserLogView.FieldsConcat` | dishwasher/cogs/mod_userlog.py:32-56 | the fields for two name lists in a row are the first list's fields followed by the second's, so fields appear in the order the names are asked for |
| `UserLogView.FieldsKindsDistinct` | dishwasher/cogs/mod_userlog.py:32-56 | names without repeats give fields with pairwise different kinds, so each kind has at most one field |
| `UserLogView.StaffViewTossesFirst` | dishwasher/cogs/mod_userlog.py:19-30 | the staff default view is the tosses field followed by the fields of the user's own default view |
| `UserLogView.HasFieldOfOne` | dishwasher/cogs/mod_userlog.py:32-56 | a single name yields a field of kind k exactly when it is k's name and k's list is non-empty |
| `UserLogView.FieldsExactlyNonEmpty` | dishwasher/cogs/mod_userlog.py:32-56 | a kind gets a field iff its name was asked for and its list is non-empty |
| `UserLogView.LogView` | dishwasher/cogs/mod_userlog.py:16-76 | "Not in system." exactly for an absent user. Otherwise: green without fields, orange with fields, dark red for a watched user in the staff view. The watch/note line appears only in the staff view, with "notes" plural unless the count is one. "No logs recorded." appears exactly when there are no fields |
| `UserLogView.ListArgumentIgnored` | dishwasher/cogs/mod_userlog.py:290-291 | the list `fullinfo` passes is ignored: the view equals the staff default view |
| `UserLogView.OwnViewHidesStaffData` | dishwasher/cogs/mod_userlog.py:26-42 | the user's own view never shows tosses or notes and never names an issuer |
| `Moderation.Guard` | dishwasher/cogs/mod.py:115-122 | the refusal is for the issuer first, then the bot account, then a current member holding the configured staff role; otherwise the command may go ahead |
| `Moderation.LoggedReason` | dishwasher/cogs/mod.py:124-133 | ban, dban, sban and warn store the given reason, or "No reason provided. (<jump url>)" when it is empty |
| `Moderation.GivenText` | dishwasher/cogs/mod.py:69-70 | the reason sentence is in the direct message exactly when the reason is non-empty |
| `Moderation.ConfiguredUrl` | dishwasher/cogs/mod.py:144-148 | the appeal (or rules) URL is included exactly when it is configured and non-empty |
| `Moderation.ReasonFieldOf` | dishwasher/cogs/mod.py:98-105 | an empty reason yields the "No reason" reminder field, never an empty field |
| `Moderation.AuditStep` | dishwasher/cogs/mod.py:86-89 | the mod-log record is made exactly when a mod-log channel is configured; otherwise the step is skipped without error |
| `Moderation.ActAndReport` | dishwasher/cogs/mod.py:159-185 | a raising kick/ban/unban call ends the command right after the call; otherwise the reply follows, then the mod-log record when configured; stages strictly increase |
| `Moderation.LogThenActEffects` | dishwasher/cogs/mod.py:62-107 | log write first, then the direct message if any, then the call, reply and record; the effects are in strict stage order |
| `Moderation.Kick` | dishwasher/cogs/mod.py:53-107 | refusal (no log write) iff the target is not a member or the guard refuses. Otherwise the reason is logged verbatim, even when empty. Then come the direct message, the kick, the reply and the mod-log record, in order. A raising kick ends the list at the call. Otherwise the "was KICKED" reply follows the kick, and the record is last exactly when a channel is configured |
| `Moderation.BanDmStep` | dishwasher/cogs/mod.py:139-157 | the ban direct message is attempted exactly for current members |
| `Moderation.Ban` | dishwasher/cogs/mod.py:113-185 | refusal iff the guard refuses (the staff check applies only to members), with nothing logged. Otherwise exactly one ban event with the stored reason is logged first. Then comes the direct message exactly for current members, with the appeal URL when configured. Then the ban call, keeping messages. A raising ban ends the list at the call; otherwise the "is now BANNED" reply follows it, and the mod-log record is last when configured. The DM outcome never prevents the ban |
| `Moderation.DBanEffects` | dishwasher/cogs/mod.py:209-273 | an allowed dban writes the log entry first and messages members only. As written, a non-member stops right after the log write, with no ban call. Otherwise the ban call carries the requested day count; a raising call ends the list, and otherwise the "BANNED ... deleting N days" reply follows and the record is last when configured. That record is the "Ban" record for the target in the mod-log channel, carrying the reason, or the "No reason provided!" reminder when the reason is empty |
| `Moderation.DBanWith` | dishwasher/cogs/mod.py:191-273 | the day count is checked after the guard and before any log write, and out-of-range counts refuse without logging. An allowed dban logs exactly one ban event and produces the effects described for `DBanEffects` |
| `Moderation.DBanAsWritten` | dishwasher/cogs/mod.py:244-247 | for a target who is not a current member, the code's `target.ban` raises after the log write, and no ban call is made |
| `Moderation.DBan` | dishwasher/cogs/mod.py:191-273 | every dban that passes its checks makes the ban call with the requested day count; it raises only when the platform call does |
| `Moderation.SBan` | dishwasher/cogs/mod.py:367-418 | like ban, but no direct message is ever attempted. The log write comes first and the ban call second; a raising call ends the list there. Otherwise the "silently BANNED" reply comes third, then the record. That record is the "Silent Ban" record for the target in the mod-log channel, carrying the reason or the reminder for an empty one |
| `Moderation.Unban` | dishwasher/cogs/mod.py:330-361 | no guard, no log write and no direct message. The unban call comes first, and a raising call is the only effect. Otherwise the "is now UNBANNED" reply comes second, then the record. That record is the "Unban" record for the target in the mod-log channel, carrying the reason or the reminder for an empty one |
| `Moderation.WarnEffects` | dishwasher/cogs/mod.py:680-731 | a warn's log write comes first. The direct message, carrying the warn number and the rules URL when configured, is attempted exactly for members. The reply carries the warn number. The "Warn #N" record comes last exactly when a channel is configured |
| `Moderation.Warn` | dishwasher/cogs/mod.py:656-731 | refusal iff the guard refuses (its staff refusal says "ban"); otherwise exactly one warn event is logged and the number N shown everywhere is the user's new warn count, one more than before |
| `Moderation.Note` | dishwasher/cogs/mod.py:736-739 | no guard; the note text is logged verbatim, even when empty, then "Noted." |
| `Moderation.MassbanWith` | dishwasher/cogs/mod.py:279-324 | the "in progress" message comes first; the final "All N users are now BANNED." appears exactly when the loop completes, with N the number of ids given, skipped ids included |
| `Moderation.MassbanLogsFixedReason` | dishwasher/cogs/mod.py:299-305 | every entry massban writes is a ban event with the fixed "Part of a massban" text and jump link |
| `Moderation.MassbanActsOnEligible` | dishwasher/cogs/mod.py:286-311 | when every id resolves and no ban raises, massban logs and bans exactly the ids it does not skip, once each, in the order given |
| `Moderation.MassbanSparesActorAndStaff` | dishwasher/cogs/mod.py:289-297 | whatever the platform answers, massban never logs or bans the issuer or a current staff member |
| `Moderation.MassbanSparesBot` | dishwasher/cogs/mod.py:292-294 | with the bot comparison made on ids, massban never logs or bans the bot account |
| `Moderation.MassbanAsWrittenBansBot` | dishwasher/cogs/mod.py:292 | as written, massban over the bot's own id logs and bans the bot |
| `Moderation.MassbanStopsAtFailure` | dishwasher/cogs/mod.py:286-324 | a ban that raises ends massban, also after earlier ids were banned. The logged and the banned ids are exactly the acted-on earlier ids followed by the failing id; no later id is touched and no final count is reported |
| `Moderation.MassbanLoopPrefix` | dishwasher/cogs/mod.py:286-311 | while no id ends it, the loop over `pre + post` is the loop over `pre` followed by the loop over `post` on the files `pre` left |
| `Moderation.MassbanStoreLogsActed` | dishwasher/cogs/mod.py:299-305 | when every id resolves and no ban raises, each user's ban list in the command's guild gains one massban event per time that user was acted on, appended after the old entries; every other list and every other guild is unchanged |
| `Moderation.MassbanBotCheckIrrelevant` | dishwasher/cogs/mod.py:292-294 | when the bot's id is not listed, the loop with and without the bot comparison is the same |
| `Moderation.DBanAsWrittenLogsWithoutBan` | dishwasher/cogs/mod.py:209-247 | as written, a dban of a non-member records a ban event and then never bans |
| `Moderation.Execute` | dishwasher/cogs/mod.py:53-739 | each request runs its command. `corrected` chooses between `dban` and `massban` as written and their corrected versions; every other command is the same either way. Unban never writes the log, massban opens with its in-progress message, and every other command's effects are in stage order |
| `Moderation.RefusalWritesNothing` | dishwasher/cogs/mod.py:53-739 | only kick, ban, dban, sban and warn refuse, and a refusal leaves the files unchanged and writes no log entry, for the code as written and the corrected commands |
| `Moderation.LogWrittenFirst` | dishwasher/cogs/mod.py:62-68 | a guarded command that goes ahead, and note, write the log entry against the target before any other effect, for both variants |
| `Moderation.ExecuteVariantsAgree` | dishwasher/cogs/mod.py:191-324 | the code as written and the corrected commands give the same result on every request except a dban of a non-member and a massban listing the bot's id |
| `Moderation.RefuseActorAndBot` | dishwasher/cogs/mod.py:195-198 | kick, ban, dban, sban and warn refuse the issuer and the bot with the self/bot reply, write nothing, and do nothing else, for both variants |
| `Moderation.RefuseStaff` | dishwasher/cogs/mod.py:23-27 | every guarded command refuses a current member holding the staff role ("kick" or "ban" in the reply), before dban's day-count check, writing nothing, for both variants |
| `Moderation.UnguardedNeverRefuse` | dishwasher/cogs/mod.py:736-739 | unban and note are never refused, for both variants |
| `Moderation.LogThenActIgnoresDm` | dishwasher/cogs/mod.py:73-83 | the shared log-then-act step depends on the direct message only through the recorded DM outcome |
| `Moderation.KickIgnoresDm` | dishwasher/cogs/mod.py:73-83 | a refused or failed kick direct message changes neither the files, the status nor any other effect |
| `Moderation.BanIgnoresDm` | dishwasher/cogs/mod.py:149-157 | the same for ban |
| `Moderation.DBanIgnoresDm` | dishwasher/cogs/mod.py:234-242 | the same for dban |
| `Moderation.WarnIgnoresDm` | dishwasher/cogs/mod.py:692-700 | the same for warn |
| `Moderation.MassbanIgnoresDm` | dishwasher/cogs/mod.py:279-280 | massban sends no direct message: its result does not depend on the DM outcome at all |
| `Moderation.KickOrBanIgnoresDm` | dishwasher/cogs/mod.py:73-157 | for kick and ban, as written and corrected, the DM outcome changes nothing but its own record |
| `Moderation.DBanOrWarnIgnoresDm` | dishwasher/cogs/mod.py:234-242 | the same for dban and warn |
| `Moderation.OthersIgnoreDm` | dishwasher/cogs/mod.py:279-418 | the same for sban, unban, note and massban, which send no direct message |
| `Moderation.DmOutcomeIrrelevant` | dishwasher/cogs/mod.py:149-157 | for every command, as written and corrected, the DM outcome changes nothing but its own record |
| `Moderation.LogKeptWhenActionRaises` | dishwasher/cogs/mod.py:62-83 | when the kick/ban call raises, the log entry already written stays written, for both variants |
| `TsarRoles.LastMatch` | dishwasher/cogs/tsar.py:32-35 | the lookup selects the last entry whose name equals the query ignoring case; no entry matches when none is found |
| `TsarRoles.HeldOf` | dishwasher/cogs/tsar.py:43-52 | the forbidden roles named in the refusal are exactly the listed roles the author holds |
| `TsarRoles.MissingOf` | dishwasher/cogs/tsar.py:56-65 | the required roles named in the refusal are exactly the listed roles the author lacks |
| `TsarRoles.HeldOfConcat` | dishwasher/cogs/tsar.py:50-52 | the forbidden roles named for a concatenated list are those named for each part, in order; with `HeldOrMissingOfOne`, the refusal lists the held roles in list order |
| `TsarRoles.MissingOfConcat` | dishwasher/cogs/tsar.py:63-65 | the same for the required roles the author lacks |
| `TsarRoles.HeldOrMissingOfOne` | dishwasher/cogs/tsar.py:43-65 | a single listed role is named in the forbidden refusal exactly when held, and in the required refusal exactly when not held |
| `TsarRoles.HeldOfCounts` | dishwasher/cogs/tsar.py:50-52 | a held role is named as many times as it is listed, duplicates included; a role not held is never named |
| `TsarRoles.MissingOfCounts` | dishwasher/cogs/tsar.py:63-65 | a missing role is named as many times as it is listed; a held role is never named |
| `TsarRoles.DaysToWait` | dishwasher/cogs/tsar.py:69-80 | only a non-zero minimum applies; an untracked author waits the full minimum, a tracked one the positive difference; no wait iff the minimum is met |
| `TsarRoles.Found` | dishwasher/cogs/tsar.py:32-41 | a definition is found iff some name matches ignoring case, and it is the last such one |
| `TsarRoles.Role` | dishwasher/cogs/tsar.py:24-93 | checks in order: nothing configured, no such name, a forbidden role held, a required role missing, days to wait. The role toggles iff the author is eligible: removed if held, added if not. Otherwise the author's roles are unchanged |
| `TsarRoles.EligibleIgnoresOwnRole` | dishwasher/cogs/tsar.py:43-80 | a role in neither of its own lists does not affect its own eligibility |
| `TsarRoles.ToggleTwiceRestores` | dishwasher/cogs/tsar.py:82-93 | toggling twice restores the author's roles; an add is followed by a remove and vice versa |
| `TsarRoles.GiveOnly` | dishwasher/cogs/tsar.py:268-271 | a role in its own forbidden list is never removed by `role` |
| `TsarRoles.RemoveOnly` | dishwasher/cogs/tsar.py:289-290 | a role in its own required list is never added by `role` |
| `TsarRoles.RoleList` | dishwasher/cogs/tsar.py:298-303 | "none" in any case maps to `None`; any other answer is the parse of each token, failing when a token does not parse |
| `TsarRoles.CreateWith` | dishwasher/cogs/tsar.py:237-311 | refused exactly at 20 definitions, then exactly on a case-insensitive duplicate name. Then "both lists" is refused exactly when the id text is a token of both answers, or, in the corrected check, when the parsed id is in both parsed lists. "Not a number" is refused exactly when an answer does not parse, and the definition is saved exactly when every check passes and every answer parses. A saved definition is appended after the old ones with the parsed answers, and its two wizard notes are shown exactly when the id text is a token of the forbidden or the required answer |
| `TsarRoles.Create` | dishwasher/cogs/tsar.py:280-287 | the corrected creation never saves a role whose id is in both of its parsed lists |
| `TsarRoles.CreateKeepsCap` | dishwasher/cogs/tsar.py:238-242 | starting from at most 20 definitions, creation never exceeds 20 |
| `TsarRoles.CreateThenFind` | dishwasher/cogs/tsar.py:295-304 | after a creation, `role` with the new name in any case selects the new definition |
| `TsarRoles.CreateKeepsNamesDistinct` | dishwasher/cogs/tsar.py:245-251 | a created name differs, ignoring case, from every earlier name |
| `TsarRoles.GiveOnlyNoteHolds` | dishwasher/cogs/tsar.py:268-271 | when the "give only" note is shown and the definition saved, the role is in its own forbidden list |
| `TsarRoles.RemoveOnlyNoteHolds` | dishwasher/cogs/tsar.py:289-290 | when the "remove only" note is shown and the definition saved, the role is in its own required list |
| `TsarRoles.CreateAsWrittenAllowsBoth` | dishwasher/cogs/tsar.py:280-287 | as written, id "5" with forbidden "5" and required "05" is saved with the role in both lists |
| `TsarRoles.BothListsBlockToggle` | dishwasher/cogs/tsar.py:43-67 | a role in both of its own lists can never be added or removed |
| `TsarRoles.Remove` | dishwasher/cogs/tsar.py:312-317 | `del` with the name exactly as typed: a missing key saves nothing; otherwise the entries with that key go and all others stay, in their order |
| `TsarRoles.RemoveKeepsOrder` | dishwasher/cogs/tsar.py:312-317 | removing the only entry with a key gives the entries before it followed by the entries after it |
| `TsarRoles.CreateThenRemove` | dishwasher/cogs/tsar.py:295-316 | removing a definition just created, under its exact name, restores the previous list |
| `TsarRoles.Nuke` | dishwasher/cogs/tsar.py:324-343 | the list is emptied on "yes" in any case and otherwise left unchanged |
| `TsarRoles.NukeThenRole` | dishwasher/cogs/tsar.py:24-30 | after a confirmed nuke, `role` answers that no roles are configured for every name and changes no roles; after any other answer, every answer of `role` is as before |
| `TsarRoles.Configure` | dishwasher/cogs/tsar.py:230-343 | cancel saves nothing. Create saves exactly when the creation it runs does: `byValue = false` is the text comparison as written, `true` the corrected one. What it saves is the created list, which appends one definition and never goes beyond 20. Remove saves nothing exactly when the key is missing, and otherwise the list without that key, in order. Nuke saves the empty list exactly on "yes" |
| `TsarRoles.ConfigureVariantsDiffer` | dishwasher/cogs/tsar.py:280-304 | on id "5" with forbidden "5" and required "05", the editor as written saves the definition and the corrected one refuses it |
| `Analytics.Bump` | sangou/cogs/analytics.py:134-141 | a missing command is initialised to zero/zero at the end of the file; the command's counter gets exactly one more success or failure; every other command's counter and every key position are unchanged |
| `Analytics.BumpKeepsKeysDistinct` | sangou/cogs/analytics.py:134-138 | the update never duplicates a command key |
| `Analytics.Record` | sangou/cogs/analytics.py:113-141 | bots and opted-out users are ignored. The notice is attempted exactly for a user without analytics. Nothing is saved when it cannot be delivered. The file changes exactly in the remaining cases, and then by the counter update; other users and the opt-out list never change |
| `Analytics.OnCompletion` | sangou/cogs/analytics.py:143-171 | a recorded completion adds one success to that command only |
| `Analytics.OnError` | sangou/cogs/analytics.py:113-141 | a recorded error adds one failure to that command only |
| `Analytics.RemoveFirst` | sangou/cogs/analytics.py:77 | `list.remove` drops exactly the first occurrence, one element of the multiset |
| `Analytics.Enable` | sangou/cogs/analytics.py:64-82 | a user not opted out is told so and nothing is saved; otherwise one occurrence leaves the opt-out list; analytics files are untouched |
| `Analytics.Disable` | sangou/cogs/analytics.py:85-111 | an opted-out user is told so and nothing is saved. Otherwise the user is appended once and their analytics are emptied: the "nothing to delete" reply comes exactly when they were empty already. Other users' files never change |
| `Analytics.DisableThenEnable` | sangou/cogs/analytics.py:73-99 | opting out and back in restores the opt-out list exactly |
| `Analytics.TogglesKeepNoDuplicates` | sangou/cogs/analytics.py:92-99 | neither command introduces a duplicate into the opt-out list |
| `Analytics.DisableStopsRecording` | sangou/cogs/analytics.py:147-152 | after opting out, the listeners record nothing for the user |
| `Analytics.Stats` | sangou/cogs/analytics.py:19-35 | "no analytics" exactly for an empty file; otherwise the last ten entries (all when fewer), in file order, and the number of commands used |
| `Analytics.FirstUseListedLast` | sangou/cogs/analytics.py:32 | a command completed for the first time appears last in the next listing with one success |

## Where the code and its description differ

The model follows the code in each case.

- `massban` has no per-target error isolation: an id that `fetch_user` cannot
  resolve, or a ban that raises, ends the command (`dishwasher/cogs/mod.py:286-311`).
- `ban`, `dban`, `sban` and `warn` store "No reason provided. (<jump url>)" when the
  reason is empty; they do not store an empty reason (`dishwasher/cogs/mod.py:124-133`).
- `warn`'s staff refusal reads "I cannot ban Staff members."
  (`dishwasher/cogs/mod.py:665`); the model keeps that text.

## Left out

- Discord I/O: message sends and edits, `fetch_channel`, role add/remove, and `wait_for` with its timeouts. These are abstract effects or inputs; a timed-out wizard step is simply not modelled.
- Embed construction: colours as hex, `stock_embed`/`author_embed`/`mod_embed`, `clean_content` escaping, and the exact wording of the random self/bot replies.
- The helpers whose bodies are not part of this model: `add_userlog`, `get_guildfile`/`set_guildfile`, `get_config`, `userlog_event_types`. Their behaviour is the stated assumption; a user record missing one of the kind keys is not modelled.
- Timestamp parsing and formatting in the log view. Timestamps are opaque strings.
- Races between concurrent commands rewriting the same file. This is concurrency, not sequential logic.
- Purge commands, `msgcount`, `speak`, `reply`, `react`, `typing`, `playing`, nickname and `setguildicon`. These are channel-history or presence I/O.
- The `fullinfo` join-score sort and the activity/status rendering.
- The `roles` listing command and other read-only displays in the TSAR cog.
- The completion percentage in `stats`: float rounding. `mydata`: zips files on disk.
- Massban argument parsing (`int(t)` over `targets.strip().split(" ")`): massban takes the already parsed ids. A token that does not parse, including the empty token between two adjacent spaces, raises after the "in progress" message is posted and before any id is handled.
- Unknown kind names passed to `clear`/`delete`. The kind is a closed datatype.
- `ctx.guild.get_role` returning `None` for a deleted role. Roles are compared by id.
- An absent `nostats` key and an absent analytics file both read as empty. Creating the key is not modelled.
- `Text.Lower`: lowers ASCII capitals only. Python lowers every Unicode capital.
- `Text.ParseInt`: accepts only an optional sign and ASCII digits. Python's `int()` also strips surrounding whitespace and accepts underscores and non-ASCII digits.
- `Moderation.MassbanWith`: its own contract states only the opening and closing messages. Which ids are logged, banned or spared is stated by the massban lemmas in the table.

## Findings

| source | as written | input that shows it | evidently intended | confidence | as-written member | corrected member |
|---|---|---|---|---|---|---|
| dishwasher/cogs/mod.py:292 | `target == self.bot.user` compares an int id with the bot's user object, so it is never true | massban over the bot's own id, by a non-staff issuer: the bot is logged and banned | skip the bot's id, as the other commands do | not executed | `Moderation.MassbanAsWrittenBansBot` | `Moderation.MassbanSparesBot` |
| dishwasher/cogs/mod.py:244-247 | `target.ban(...)` is called on the converted `discord.User` when the target is not a current member; a plain user has no `ban` method | dban 3 of a user who already left the guild: the ban event is logged, then the call raises and no ban is made | ban through the guild, as `ban` and `sban` do | not executed | `Moderation.DBanAsWrittenLogsWithoutBan` | `Moderation.DBan` |
| dishwasher/cogs/tsar.py:280-287 | the both-lists check compares answer texts, not the parsed ids | id "5", forbidden "5", required "05": saved with role 5 in both lists, and then it can never be added or removed | refuse a role whose id is in both parsed lists | not executed | `TsarRoles.CreateAsWrittenAllowsBoth` | `TsarRoles.Create` |

=== FILE: analytics.dfy ===
/** Per-user command analytics: the success/failure counters the two command
    listeners keep, the `nostats` opt-out list toggled by `stats enable` and
    `stats disable`, and the last-ten listing of `stats`. */
module Analytics {
  import opened Common

  datatype Counter = Counter(success: nat, failure: nat)

  /** One user's analytics file: command names to counters, in first-use order. */
  type CommandStats = seq<(string, Counter)>

  /** The `botusers` file's `nostats` list (an absent key reads as empty) and every
      user's analytics file (an absent file reads as empty). */
  datatype State = State(nostats: seq<UserId>, analytics: map<UserId, CommandStats>)

  function StatsOf(s: State, u: UserId): CommandStats
  {
    if u in s.analytics then s.analytics[u] else []
  }

  /** The position of `name` in the file: the first entry with that key. */
  function IndexOf(cs: CommandStats, name: string): (r: Option<nat>)
    ensures r.Some? ==>
              && r.value < |cs|
              && cs[r.value].0 == name
              && forall j :: 0 <= j < r.value ==> cs[j].0 != name
    ensures r.None? ==> forall j :: 0 <= j < |cs| ==> cs[j].0 != name
    decreases |cs|
  {
    if |cs| == 0 then None
    else if cs[0].0 == name then Some(0)
    else match IndexOf(cs[1..], name)
      case Some(i) => Some(i + 1)
      case None => None
  }

  /** The counter of one command; a command never used reads as zero and zero. */
  function CountOf(cs: CommandStats, name: string): Counter
  {
    match IndexOf(cs, name)
    case Some(i) => cs[i].1
    case None => Counter(0, 0)
  }

  predicate HasKey(cs: CommandStats, name: string)
  {
    exists j :: 0 <= j < |cs| && cs[j].0 == name
  }

  /** Lists with the same keys at the same positions find every key at the same place. */
  lemma {:induction false} IndexOfByKeys(a: CommandStats, b: CommandStats, name: string)
    requires |a| == |b| && forall j :: 0 <= j < |a| ==> a[j].0 == b[j].0
    ensures IndexOf(a, name) == IndexOf(b, name)
  {
  }

  /** Appending an entry with a different key moves no existing key. */
  lemma {:induction false} IndexOfAppend(cs: CommandStats, p: (string, Counter), name: string)
    requires p.0 != name
    ensures IndexOf(cs + [p], name) == IndexOf(cs, name)
  {
    var c := cs + [p];
    var ic, i := IndexOf(c, name), IndexOf(cs, name);
    assert forall j :: 0 <= j < |cs| ==> c[j] == cs[j];
    assert c[|cs|] == p;
  }

  datatype Result = Success | Failure

  /** A counter with one more success or one more failure. */
  function Tally(c: Counter, result: Result): (r: Counter)
    ensures result == Success ==> r.success == c.success + 1 && r.failure == c.failure
    ensures result == Failure ==> r.failure == c.failure + 1 && r.success == c.success
  {
    match result
    case Success => c.(success := c.success + 1)
    case Failure => c.(failure := c.failure + 1)
  }

  /** The update the listeners make: a missing command is first initialised to zero
      and zero at the end of the file; then its counter is tallied in place. */
  function Bump(cs: CommandStats, name: string, result: Result): (r: CommandStats)
    ensures CountOf(r, name) == Tally(CountOf(cs, name), result)
    ensures forall other :: other != name ==> CountOf(r, other) == CountOf(cs, other)
    ensures HasKey(cs, name) ==> |r| == |cs| && forall j :: 0 <= j < |cs| ==> r[j].0 == cs[j].0
    ensures !HasKey(cs, name) ==> |r| == |cs| + 1 && r[..|cs|] == cs && r[|cs|].0 == name
  {
    match IndexOf(cs, name)
    case Some(i) =>
      var r := cs[i := (name, Tally(cs[i].1, result))];
      assert forall other :: IndexOf(r, other) == IndexOf(cs, other) by {
        forall other { IndexOfByKeys(r, cs, other); }
      }
      r
    case None =>
      var r := cs + [(name, Tally(Counter(0, 0), result))];
      assert r[..|cs|] == cs;
      assert forall j :: 0 <= j < |cs| ==> r[j] == cs[j];
      assert r[|cs|].0 == name;
      assert IndexOf(r, name) == Some(|cs|);
      assert forall other :: other != name ==> IndexOf(r, other) == IndexOf(cs, other) by {
        forall other | other != name { IndexOfAppend(cs, (name, Tally(Counter(0, 0), result)), other); }
      }
      r
  }

  /** A file never holds the same command twice. */
  predicate DistinctKeys(cs: CommandStats)
  {
    forall i, j :: 0 <= i < j < |cs| ==> cs[i].0 != cs[j].0
  }

  lemma BumpKeepsKeysDistinct(cs: CommandStats, name: string, result: Result)
    requires DistinctKeys(cs)
    ensures DistinctKeys(Bump(cs, name, result))
  {
    var r := Bump(cs, name, result);
    if !HasKey(cs, name) {
      forall i, j | 0 <= i < j < |r| ensures r[i].0 != r[j].0 {
        if j == |cs| {
          assert r[i] == cs[i];
        } else {
          assert r[i] == cs[i] && r[j] == cs[j];
        }
      }
    }
  }

  /** What a listener did: the state afterwards and whether the one-time privacy
      notice was attempted. */
  datatype ListenerOutcome = ListenerOutcome(state: State, noticeAttempted: bool)

  /** The shared body of `on_command_completion` and `on_command_error`. Bots and
      opted-out users are ignored. A user with no analytics yet is first sent the
      notice; if it cannot be delivered nothing is saved. */
  function Record(s: State, u: UserId, isBot: bool, noticeDelivered: bool, command: string, result: Result)
    : (r: ListenerOutcome)
    ensures r.state.nostats == s.nostats
    ensures forall v :: v != u ==> StatsOf(r.state, v) == StatsOf(s, v)
    ensures isBot || u in s.nostats ==> r.state == s && !r.noticeAttempted
    ensures r.noticeAttempted <==> !isBot && u !in s.nostats && StatsOf(s, u) == []
    ensures r.noticeAttempted && !noticeDelivered ==> r.state == s
    ensures r.state != s <==> !isBot && u !in s.nostats && (StatsOf(s, u) != [] || noticeDelivered)
    ensures r.state != s ==> StatsOf(r.state, u) == Bump(StatsOf(s, u), command, result)
  {
    if isBot || u in s.nostats then ListenerOutcome(s, false)
    else
      var cs := StatsOf(s, u);
      if cs == [] && !noticeDelivered then ListenerOutcome(s, true)
      else
        var cs' := Bump(cs, command, result);
        assert StatsOf(s.(analytics := s.analytics[u := cs']), u) == cs';
        assert cs' != cs by {
          assert CountOf(cs', command) != CountOf(cs, command);
        }
        ListenerOutcome(s.(analytics := s.analytics[u := cs']), cs == [])
  }

  /** `on_command_completion`: one more success for the command, nothing else. */
  function OnCompletion(s: State, u: UserId, isBot: bool, noticeDelivered: bool, command: string): (r: ListenerOutcome)
    ensures r.state != s ==>
              && CountOf(StatsOf(r.state, u), command).success == CountOf(StatsOf(s, u), command).success + 1
              && CountOf(StatsOf(r.state, u), command).failure == CountOf(StatsOf(s, u), command).failure
              && forall other :: other != command ==> CountOf(StatsOf(r.state, u), other) == CountOf(StatsOf(s, u), other)
    ensures isBot || u in s.nostats ==> r.state == s
  {
    Record(s, u, isBot, noticeDelivered, command, Success)
  }

  /** `on_command_error`: one more failure for the command, nothing else. */
  function OnError(s: State, u: UserId, isBot: bool, noticeDelivered: bool, command: string): (r: ListenerOutcome)
    ensures r.state != s ==>
              && CountOf(StatsOf(r.state, u), command).failure == CountOf(StatsOf(s, u), command).failure + 1
              && CountOf(StatsOf(r.state, u), command).success == CountOf(StatsOf(s, u), command).success
              && forall other :: other != command ==> CountOf(StatsOf(r.state, u), other) == CountOf(StatsOf(s, u), other)
    ensures isBot || u in s.nostats ==> r.state == s
  {
    Record(s, u, isBot, noticeDelivered, command, Failure)
  }

  /** The first position of `x`, if any. */
  function FirstIndex(xs: seq<UserId>, x: UserId): (r: Option<nat>)
    ensures r.Some? <==> x in xs
    ensures r.Some? ==> r.value < |xs| && xs[r.value] == x && x !in xs[..r.value]
    decreases |xs|
  {
    if |xs| == 0 then None
    else if xs[0] == x then Some(0)
    else match FirstIndex(xs[1..], x)
      case Some(i) =>
        assert xs[..i + 1] == [xs[0]] + xs[1..][..i];
        Some(i + 1)
      case None => None
  }

  /** `list.remove(x)`: drop the first occurrence of `x`. */
  function RemoveFirst(xs: seq<UserId>, x: UserId): (r: seq<UserId>)
    requires x in xs
    ensures |r| == |xs| - 1
    ensures var i := FirstIndex(xs, x).value; r == xs[..i] + xs[i + 1..]
    ensures multiset(r) == multiset(xs) - multiset{x}
  {
    var i := FirstIndex(xs, x).value;
    assert xs == xs[..i] + [x] + xs[i + 1..];
    xs[..i] + xs[i + 1..]
  }

  predicate NoDuplicates(xs: seq<UserId>)
  {
    forall i, j :: 0 <= i < j < |xs| ==> xs[i] != xs[j]
  }

  datatype ToggleReply = AlreadyOn | TurnedOn | AlreadyOff | TurnedOffDeleted | TurnedOffNothingToDelete

  /** `stats enable`: a user not in `nostats` is told analytics are already on and
      nothing is saved; otherwise the first occurrence is removed. Analytics files
      are not touched. */
  function Enable(s: State, u: UserId): (r: (State, ToggleReply))
    ensures r.0.analytics == s.analytics
    ensures r.1 == AlreadyOn <==> u !in s.nostats
    ensures r.1 == AlreadyOn ==> r.0 == s
    ensures r.1 != AlreadyOn ==> r.1 == TurnedOn && multiset(r.0.nostats) == multiset(s.nostats) - multiset{u}
    ensures NoDuplicates(s.nostats) ==> u !in r.0.nostats
  {
    if u !in s.nostats then (s, AlreadyOn)
    else
      var r := RemoveFirst(s.nostats, u);
      assert NoDuplicates(s.nostats) ==> u !in r by {
        if NoDuplicates(s.nostats) {
          var i := FirstIndex(s.nostats, u).value;
          forall a | 0 <= a < |r| ensures r[a] != u {
            if a < i {
              assert r[a] == s.nostats[..i][a];
            } else {
              assert r[a] == s.nostats[a + 1];
              assert s.nostats[i] == u;
            }
          }
        }
      }
      (s.(nostats := r), TurnedOn)
  }

  /** `stats disable`: a user already in `nostats` is told so and nothing is saved;
      otherwise the user is appended once and a non-empty analytics file is emptied. */
  function Disable(s: State, u: UserId): (r: (State, ToggleReply))
    ensures r.1 == AlreadyOff <==> u in s.nostats
    ensures r.1 == AlreadyOff ==> r.0 == s
    ensures r.1 != AlreadyOff ==> r.0.nostats == s.nostats + [u]
    ensures r.1 == TurnedOffNothingToDelete <==> u !in s.nostats && StatsOf(s, u) == []
    ensures r.1 == TurnedOffNothingToDelete ==> r.0.analytics == s.analytics
    ensures u in r.0.nostats
    ensures r.1 != AlreadyOff ==> StatsOf(r.0, u) == []
    ensures forall v :: v != u ==> StatsOf(r.0, v) == StatsOf(s, v)
  {
    if u in s.nostats then (s, AlreadyOff)
    else if StatsOf(s, u) == [] then (s.(nostats := s.nostats + [u]), TurnedOffNothingToDelete)
    else (State(s.nostats + [u], s.analytics[u := []]), TurnedOffDeleted)
  }

  /** Removing the first occurrence of a value appended to a list without it gives
      the list back. */
  lemma {:induction false} RemoveFirstAppended(xs: seq<UserId>, u: UserId)
    requires u !in xs
    ensures RemoveFirst(xs + [u], u) == xs
  {
    var i := FirstIndex(xs + [u], u).value;
    assert forall j :: 0 <= j < |xs| ==> (xs + [u])[j] == xs[j];
    assert (xs + [u])[..|xs|] == xs;
  }

  /** Opting out and back in restores the opt-out list exactly. */
  lemma DisableThenEnable(s: State, u: UserId)
    requires u !in s.nostats
    ensures Enable(Disable(s, u).0, u).0.nostats == s.nostats
    ensures Enable(Disable(s, u).0, u).1 == TurnedOn
  {
    RemoveFirstAppended(s.nostats, u);
  }

  /** The opt-out list never gains a duplicate through the two commands. */
  lemma {:induction false} TogglesKeepNoDuplicates(s: State, u: UserId)
    requires NoDuplicates(s.nostats)
    ensures NoDuplicates(Disable(s, u).0.nostats)
    ensures NoDuplicates(Enable(s, u).0.nostats)
  {
    var d := Disable(s, u).0.nostats;
    if u !in s.nostats {
      forall i, j | 0 <= i < j < |d| ensures d[i] != d[j] {
        if j == |s.nostats| {
          assert d[i] == s.nostats[i];
        } else {
          assert d[i] == s.nostats[i] && d[j] == s.nostats[j];
        }
      }
    }
    if u in s.nostats {
      var e := Enable(s, u).0.nostats;
      var k := FirstIndex(s.nostats, u).value;
      assert e == s.nostats[..k] + s.nostats[k + 1..];
      forall i, j | 0 <= i < j < |e| ensures e[i] != e[j] {
        var i' := if i < k then i else i + 1;
        var j' := if j < k then j else j + 1;
        assert e[i] == s.nostats[i'] && e[j] == s.nostats[j'];
      }
    }
  }

  /** After opting out, neither listener records anything for the user. */
  lemma DisableStopsRecording(s: State, u: UserId, noticeDelivered: bool, command: string, result: Result)
    ensures var d := Disable(s, u).0;
            Record(d, u, false, noticeDelivered, command, result).state == d
  {
  }

  /** What `stats` shows: nothing, or the last ten entries (fewer when the file is
      shorter) and the number of commands used. */
  datatype StatsView = NoAnalytics | Listing(entries: seq<(string, Counter)>, used: nat)

  const ListingLimit := 10

  function Stats(s: State, u: UserId): (v: StatsView)
    ensures v.NoAnalytics? <==> StatsOf(s, u) == []
    ensures v.Listing? ==>
              var cs := StatsOf(s, u);
              && v.used == |cs|
              && |v.entries| == (if |cs| < ListingLimit then |cs| else ListingLimit)
              && forall j :: 0 <= j < |v.entries| ==> v.entries[j] == cs[|cs| - |v.entries| + j]
  {
    var cs := StatsOf(s, u);
    if cs == [] then NoAnalytics
    else if |cs| <= ListingLimit then Listing(cs, |cs|)
    else Listing(cs[|cs| - ListingLimit..], |cs|)
  }

  /** A command used for the first time appears last in the next listing, with a
      single success. */
  lemma FirstUseListedLast(s: State, u: UserId, command: string)
    requires u !in s.nostats && StatsOf(s, u) != [] && !HasKey(StatsOf(s, u), command)
    ensures var s' := OnCompletion(s, u, false, false, command).state;
            var v := Stats(s', u);
            && v.Listing?
            && v.entries[|v.entries| - 1] == (command, Counter(1, 0))
  {
    var cs := StatsOf(s, u);
    var cs' := Bump(cs, command, Success);
    assert IndexOf(cs, command).None?;
    assert cs'[|cs|] == (command, Counter(1, 0));
  }
}

=== FILE: common.dfy ===
/** Shared vocabulary: optional values and the identifier types of the chat platform. */
module Common {

  /** A value that may be missing (Python's `None`). */
  datatype Option<+T> = None | Some(value: T)

  /** Platform snowflakes. Python ints are unbounded and `int("-5")` parses, so ids are plain `int`. */
  type UserId = int
  type RoleId = int
  type GuildId = int
  type ChannelId = int

  /** Python truthiness of an optional configuration string: unset and "" are both false. */
  predicate IsSetText(o: Option<string>)
  {
    o.Some? && o.value != ""
  }

  /** Python truthiness of an optional configured channel id: unset and 0 are both false. */
  predicate IsSetId(o: Option<int>)
  {
    o.Some? && o.value != 0
  }
}

=== FILE: moderation.dfy ===
/** The moderation commands kick, ban, dban, sban, unban, warn, note and massban.
    Each command is a pure function from the guild files and the invocation context
    to the new guild files plus the ordered list of effects it performs: log write,
    direct message, kick/ban/unban call, reply in the channel, mod-log record. */
module Moderation {
  import opened Common
  import opened UserLog

  /** The guild configuration the commands read (`get_config`). */
  datatype Config = Config(
    staffRole: Option<RoleId>,   // staff.staffrole
    modlog: Option<ChannelId>,   // logging.modlog
    appealUrl: Option<string>,   // staff.appealurl
    rulesUrl: Option<string>)    // staff.rulesurl

  /** One invocation: the guild, the issuing staff member, the bot's own account, the
      guild's current members with their role ids, the configuration, the jump URL of
      the command message and the clock reading used as the event timestamp. */
  datatype Ctx = Ctx(
    guild: GuildId, actor: UserId, actorName: string, bot: UserId,
    members: map<UserId, set<RoleId>>, config: Config, jumpUrl: string, now: string)

  /** How the platform answers a direct message. */
  datatype DmOutcome = Delivered | Forbidden | HttpError

  /** The answers of the platform that the commands do not control: the direct-message
      outcome, the users for whom the kick/ban/unban call raises, and the ids
      `fetch_user` cannot resolve. */
  datatype World = World(dm: DmOutcome, failing: set<UserId>, unresolved: set<UserId>)

  /** `check_if_target_is_staff`: a current member holding the configured staff role.
      With no staff role configured nobody matches. */
  predicate StaffMember(ctx: Ctx, u: UserId)
  {
    u in ctx.members && ctx.config.staffRole.Some? && ctx.config.staffRole.value in ctx.members[u]
  }

  datatype Verdict = Allowed | TargetIsActor | TargetIsBot | TargetIsStaff

  /** The refusal chain of kick, ban, dban, sban and warn. First match wins: the issuer
      themself, then the bot account, then a current member holding the staff role. */
  function Guard(ctx: Ctx, target: UserId): (v: Verdict)
    ensures v == TargetIsActor <==> target == ctx.actor
    ensures v == TargetIsBot <==> target != ctx.actor && target == ctx.bot
    ensures v == TargetIsStaff <==> target != ctx.actor && target != ctx.bot && StaffMember(ctx, target)
    ensures v == Allowed <==> target != ctx.actor && target != ctx.bot && !StaffMember(ctx, target)
  {
    if target == ctx.actor then TargetIsActor
    else if target == ctx.bot then TargetIsBot
    else if StaffMember(ctx, target) then TargetIsStaff
    else Allowed
  }

  /** What the bot says in the channel. */
  datatype Reply =
    | SelfRefusal                      // random_self_msg
    | BotRefusal                       // random_bot_msg
    | StaffRefusal(verb: string)       // "I cannot <verb> Staff members."
    | DayCountOutOfRange               // "Message delete day count must be between 0 and 7 days."
    | NotAMember                       // the Member argument of kick does not resolve
    | Kicked(user: UserId)
    | Banned(user: UserId)
    | BannedDeleting(user: UserId, days: int)
    | SilentlyBanned(user: UserId)
    | Unbanned(user: UserId)
    | Warned(user: UserId, count: nat)
    | Noted
    | MassbanStarted
    | MassbanStaffRefusal(user: UserId)
    | MassbanDone(count: nat)

  /** The direct message sent to a target. Optional parts are present exactly when the
      reason was given or the URL is configured. */
  datatype DmText =
    | KickDm(reason: Option<string>)
    | BanDm(reason: Option<string>, appealUrl: Option<string>)
    | WarnDm(reason: Option<string>, rulesUrl: Option<string>, warnNumber: nat)

  datatype AuditTitle = KickTitle | BanTitle | SilentBanTitle | UnbanTitle | WarnTitle(number: nat) | MassbanTitle

  /** The reason field of a mod-log record: the given reason, the "No reason provided!"
      reminder, or (massban) no reason field at all. */
  datatype ReasonField = GivenReason(text: string) | NoReasonWarning | NoReasonField

  datatype Effect =
    | LogWrite(target: UserId, kind: Kind, reason: string)
    | Dm(target: UserId, text: DmText, outcome: DmOutcome)
    | KickCall(target: UserId)
    | BanCall(target: UserId, deleteDays: int)
    | UnbanCall(target: UserId)
    | Say(reply: Reply)
    | Audit(channel: ChannelId, title: AuditTitle, target: UserId, field: ReasonField)

  /** Denied: a guard or argument check returned early. Raised: a kick/ban/unban call
      or `fetch_user` raised, ending the command where it stood. */
  datatype Status = Completed | Denied | Raised

  datatype Outcome = Outcome(store: Store, effects: seq<Effect>, status: Status)

  /** The refusal reply for a guard verdict; `verb` is the word the staff refusal uses. */
  function RefusalReply(v: Verdict, verb: string): Reply
  {
    match v
    case TargetIsActor => SelfRefusal
    case TargetIsBot => BotRefusal
    case _ => StaffRefusal(verb)
  }

  /** The event a command writes, issued by the invoking staff member. */
  function EventBy(ctx: Ctx, reason: string): Event
  {
    Event(ctx.now, ctx.actor, ctx.actorName, reason)
  }

  /** The text ban, dban, sban and warn store: the reason, or a pointer to the command
      message when none was given. */
  function LoggedReason(ctx: Ctx, reason: string): (r: string)
    ensures reason != "" ==> r == reason
    ensures reason == "" ==> r == "No reason provided. (" + ctx.jumpUrl + ")"
  {
    if reason != "" then reason else "No reason provided. (" + ctx.jumpUrl + ")"
  }

  /** The text massban stores for every target. */
  function MassbanReason(ctx: Ctx): string
  {
    "Part of a massban. [[Jump](" + ctx.jumpUrl + ")]"
  }

  /** A reason as an optional message part (Python truthiness of the string). */
  function GivenText(reason: string): (o: Option<string>)
    ensures o.Some? <==> reason != ""
    ensures o.Some? ==> o.value == reason
  {
    if reason != "" then Some(reason) else None
  }

  /** A configured URL, or nothing when it is unset or empty. */
  function ConfiguredUrl(o: Option<string>): (r: Option<string>)
    ensures r.Some? <==> IsSetText(o)
    ensures r.Some? ==> r == o
  {
    if IsSetText(o) then o else None
  }

  function ReasonFieldOf(reason: string): (f: ReasonField)
    ensures f == NoReasonWarning <==> reason == ""
    ensures f != NoReasonWarning ==> f == GivenReason(reason)
  {
    if reason != "" then GivenReason(reason) else NoReasonWarning
  }

  /** The mod-log post: skipped without error when no mod-log channel is configured. */
  function AuditStep(ctx: Ctx, title: AuditTitle, target: UserId, field: ReasonField): (es: seq<Effect>)
    ensures |es| <= 1
    ensures es != [] <==> IsSetId(ctx.config.modlog)
    ensures es != [] ==> es[0] == Audit(ctx.config.modlog.value, title, target, field)
  {
    if IsSetId(ctx.config.modlog) then [Audit(ctx.config.modlog.value, title, target, field)] else []
  }

  /** The order of effects within one command: log write, direct message, kick/ban/unban
      call, channel reply, mod-log post. */
  function Stage(e: Effect): nat
  {
    match e
    case LogWrite(_, _, _) => 0
    case Dm(_, _, _) => 1
    case KickCall(_) => 2
    case BanCall(_, _) => 2
    case UnbanCall(_) => 2
    case Say(_) => 3
    case Audit(_, _, _, _) => 4
  }

  /** Effects strictly in stage order: each stage at most once, none out of place. */
  predicate Sequenced(es: seq<Effect>)
  {
    forall i, j :: 0 <= i < j < |es| ==> Stage(es[i]) < Stage(es[j])
  }

  predicate NoLogWrite(es: seq<Effect>)
  {
    forall i :: 0 <= i < |es| ==> !es[i].LogWrite?
  }

  /** The command ended with a mod-log post (in a sequenced list it can only be last). */
  predicate EndsWithAudit(es: seq<Effect>)
  {
    |es| > 0 && es[|es| - 1].Audit?
  }

  /** A direct message was attempted (in a sequenced list it can only follow the log write). */
  predicate DmAttempted(es: seq<Effect>)
  {
    |es| > 1 && es[1].Dm?
  }

  predicate NoDm(es: seq<Effect>)
  {
    forall i :: 0 <= i < |es| ==> !es[i].Dm?
  }

  /** A list of at most one effect, of the given stage. */
  predicate AtStage(es: seq<Effect>, stage: nat)
  {
    |es| <= 1 && (es != [] ==> Stage(es[0]) == stage)
  }

  /** A log write, an optional direct message and a sequenced tail of later stages
      are sequenced together, and each part sits where it was put. */
  lemma SequencedShape(head: Effect, dm: seq<Effect>, tail: seq<Effect>)
    requires Stage(head) == 0 && AtStage(dm, 1) && tail != []
    requires Sequenced(tail) && forall i :: 0 <= i < |tail| ==> Stage(tail[i]) >= 2
    ensures var es := [head] + dm + tail;
            && Sequenced(es)
            && |es| == 1 + |dm| + |tail|
            && es[0] == head
            && (dm != [] ==> es[1] == dm[0])
            && es[1 + |dm|] == tail[0]
            && (|tail| > 1 ==> es[2 + |dm|] == tail[1])
            && es[|es| - 1] == tail[|tail| - 1]
            && (forall i :: 1 + |dm| <= i < |es| ==> Stage(es[i]) >= 2)
  {
    var es := [head] + dm + tail;
    var n := 1 + |dm|;
    assert forall i :: n <= i < |es| ==> es[i] == tail[i - n];
    forall i, j | 0 <= i < j < |es| ensures Stage(es[i]) < Stage(es[j]) {
      if i >= n {
        assert Stage(tail[i - n]) < Stage(tail[j - n]);
      }
    }
  }

  /** The external kick/ban/unban call and what follows it: if the call raises the
      command ends there; otherwise the confirmation reply and the mod-log post,
      which is skipped without error when no mod-log channel is configured. */
  function ActAndReport(ctx: Ctx, world: World, call: Effect, reply: Reply, title: AuditTitle, field: ReasonField)
    : (r: (seq<Effect>, Status))
    requires call.KickCall? || call.BanCall? || call.UnbanCall?
    ensures r.0 != [] && r.0[0] == call
    ensures r.1 != Denied
    ensures r.1 == Raised <==> call.target in world.failing
    ensures r.1 == Raised ==> r.0 == [call]
    ensures r.1 == Completed ==> |r.0| >= 2 && r.0[1] == Say(reply)
    ensures EndsWithAudit(r.0) <==> r.1 == Completed && IsSetId(ctx.config.modlog)
    ensures EndsWithAudit(r.0) ==> r.0[|r.0| - 1] == Audit(ctx.config.modlog.value, title, call.target, field)
    ensures Sequenced(r.0) && forall i :: 0 <= i < |r.0| ==> Stage(r.0[i]) >= 2
  {
    if call.target in world.failing then ([call], Raised)
    else ([call, Say(reply)] + AuditStep(ctx, title, call.target, field), Completed)
  }

  /** `st` is `store` with exactly one more event of kind `k` against `target`,
      issued by the invoking staff member with the given stored reason. */
  predicate LoggedOnce(store: Store, st: Store, ctx: Ctx, target: UserId, k: Kind, stored: string)
  {
    st == AddUserlog(store, ctx.guild, target, k, EventBy(ctx, stored)).0
  }

  /** The effects of kick, ban, dban and sban once their checks pass: the log write,
      the direct message if any (its outcome is recorded and otherwise ignored), then
      the kick/ban call and its report. */
  function LogThenActEffects(ctx: Ctx, world: World, target: UserId, k: Kind, stored: string,
                             dm: seq<Effect>, call: Effect, reply: Reply, title: AuditTitle, field: ReasonField)
    : (r: (seq<Effect>, Status))
    requires AtStage(dm, 1)
    requires call.KickCall? || call.BanCall?
    requires call.target == target
    ensures |r.0| >= 2 + |dm|
    ensures r.0[0] == LogWrite(target, k, stored)
    ensures dm != [] ==> r.0[1] == dm[0]
    ensures r.0[1 + |dm|] == call
    ensures r.1 != Denied
    ensures r.1 == Raised <==> target in world.failing
    ensures r.1 == Raised ==> |r.0| == 2 + |dm|
    ensures r.1 == Completed ==> |r.0| >= 3 + |dm| && r.0[2 + |dm|] == Say(reply)
    ensures EndsWithAudit(r.0) <==> r.1 == Completed && IsSetId(ctx.config.modlog)
    ensures EndsWithAudit(r.0) ==> r.0[|r.0| - 1] == Audit(ctx.config.modlog.value, title, target, field)
    ensures Sequenced(r.0)
    ensures forall i :: 1 + |dm| <= i < |r.0| ==> Stage(r.0[i]) >= 2
  {
    var tail := ActAndReport(ctx, world, call, reply, title, field);
    SequencedShape(LogWrite(target, k, stored), dm, tail.0);
    ([LogWrite(target, k, stored)] + dm + tail.0, tail.1)
  }

  /** What kick, ban, dban and sban do once their checks pass: write the log entry
      and then produce the effects above. */
  function LogThenAct(store: Store, ctx: Ctx, world: World, target: UserId, k: Kind, stored: string,
                      dm: seq<Effect>, call: Effect, reply: Reply, title: AuditTitle, field: ReasonField): (o: Outcome)
    requires AtStage(dm, 1)
    requires call.KickCall? || call.BanCall?
    requires call.target == target
    ensures LoggedOnce(store, o.store, ctx, target, k, stored)
    ensures (o.effects, o.status) == LogThenActEffects(ctx, world, target, k, stored, dm, call, reply, title, field)
  {
    var r := LogThenActEffects(ctx, world, target, k, stored, dm, call, reply, title, field);
    Outcome(AddUserlog(store, ctx.guild, target, k, EventBy(ctx, stored)).0, r.0, r.1)
  }

  /** `kick`: the target must resolve to a current member; guard; log the reason as
      given (even when empty); direct message; kick; reply; mod-log post. */
  function Kick(store: Store, ctx: Ctx, world: World, target: UserId, reason: string): (o: Outcome)
    ensures o.status == Denied <==> target !in ctx.members || Guard(ctx, target) != Allowed
    ensures o.status == Denied ==> o.store == store && NoLogWrite(o.effects)
    ensures target in ctx.members && Guard(ctx, target) != Allowed ==>
              o.effects == [Say(RefusalReply(Guard(ctx, target), "kick"))]
    ensures o.status != Denied ==>
              && LoggedOnce(store, o.store, ctx, target, Kicks, reason)
              && |o.effects| >= 3
              && o.effects[0] == LogWrite(target, Kicks, reason)
              && o.effects[1] == Dm(target, KickDm(GivenText(reason)), world.dm)
              && o.effects[2] == KickCall(target)
              && (o.status == Raised <==> target in world.failing)
              && (o.status == Raised ==> |o.effects| == 3)
              && (o.status == Completed ==> |o.effects| >= 4 && o.effects[3] == Say(Kicked(target)))
              && (EndsWithAudit(o.effects) <==> o.status == Completed && IsSetId(ctx.config.modlog))
              && (EndsWithAudit(o.effects) ==>
                    o.effects[|o.effects| - 1] == Audit(ctx.config.modlog.value, KickTitle, target, ReasonFieldOf(reason)))
    ensures Sequenced(o.effects)
  {
    if target !in ctx.members then Outcome(store, [Say(NotAMember)], Denied)
    else
      var v := Guard(ctx, target);
      if v != Allowed then Outcome(store, [Say(RefusalReply(v, "kick"))], Denied)
      else
        LogThenAct(store, ctx, world, target, Kicks, reason,
                   [Dm(target, KickDm(GivenText(reason)), world.dm)],
                   KickCall(target), Kicked(target), KickTitle, ReasonFieldOf(reason))
  }

  /** The direct message of ban and dban. */
  function BanDmOf(ctx: Ctx, reason: string): DmText
  {
    BanDm(GivenText(reason), ConfiguredUrl(ctx.config.appealUrl))
  }

  /** The ban direct message is attempted only while the target is a current member. */
  function BanDmStep(ctx: Ctx, world: World, target: UserId, reason: string): (es: seq<Effect>)
    ensures es != [] <==> target in ctx.members
    ensures es != [] ==> es == [Dm(target, BanDmOf(ctx, reason), world.dm)]
    ensures AtStage(es, 1)
  {
    if target in ctx.members then [Dm(target, BanDmOf(ctx, reason), world.dm)] else []
  }

  /** `ban`: guard (staff check only for current members); log the reason or the
      "No reason provided" pointer; direct message to current members, appeal URL
      included when configured; ban keeping all messages; reply; mod-log post. */
  function Ban(store: Store, ctx: Ctx, world: World, target: UserId, reason: string): (o: Outcome)
    ensures o.status == Denied <==> Guard(ctx, target) != Allowed
    ensures o.status == Denied ==>
              o.store == store && o.effects == [Say(RefusalReply(Guard(ctx, target), "ban"))]
    ensures o.status != Denied ==>
              && LoggedOnce(store, o.store, ctx, target, Bans, LoggedReason(ctx, reason))
              && |o.effects| >= 2
              && o.effects[0] == LogWrite(target, Bans, LoggedReason(ctx, reason))
              && (DmAttempted(o.effects) <==> target in ctx.members)
              && (target in ctx.members ==> o.effects[1] == Dm(target, BanDmOf(ctx, reason), world.dm))
              && (o.status == Raised <==> target in world.failing)
              && (EndsWithAudit(o.effects) <==> o.status == Completed && IsSetId(ctx.config.modlog))
              && (EndsWithAudit(o.effects) ==>
                    o.effects[|o.effects| - 1] == Audit(ctx.config.modlog.value, BanTitle, target, ReasonFieldOf(reason)))
    ensures o.status != Denied ==>
              var c := if target in ctx.members then 2 else 1;
              && |o.effects| > c && o.effects[c] == BanCall(target, 0)
              && (o.status == Raised ==> |o.effects| == c + 1)
              && (o.status == Completed ==> |o.effects| > c + 1 && o.effects[c + 1] == Say(Banned(target)))
    ensures Sequenced(o.effects)
  {
    var v := Guard(ctx, target);
    if v != Allowed then Outcome(store, [Say(RefusalReply(v, "ban"))], Denied)
    else
      var dm := BanDmStep(ctx, world, target, reason);
      LogThenAct(store, ctx, world, target, Bans, LoggedReason(ctx, reason), dm,
                 BanCall(target, 0), Banned(target), BanTitle, ReasonFieldOf(reason))
  }

  /** The effects of a `dban` that passed the guard and the day-count check, with the
      ban call made either on the target object as the code does (`memberOnlyCall`:
      a target that is not a current member is a plain user without a ban method,
      so the call raises right after the log write) or through the guild. */
  function DBanEffects(ctx: Ctx, world: World, days: int, target: UserId, reason: string, memberOnlyCall: bool)
    : (r: (seq<Effect>, Status))
    requires Guard(ctx, target) == Allowed && 0 <= days <= 7
    ensures r.1 != Denied
    ensures |r.0| >= 1 && r.0[0] == LogWrite(target, Bans, LoggedReason(ctx, reason))
    ensures DmAttempted(r.0) <==> target in ctx.members
    ensures target in ctx.members ==> r.0[1] == Dm(target, BanDmOf(ctx, reason), world.dm)
    ensures EndsWithAudit(r.0) <==> r.1 == Completed && IsSetId(ctx.config.modlog)
    ensures EndsWithAudit(r.0) ==> r.0[|r.0| - 1] == Audit(ctx.config.modlog.value, BanTitle, target, ReasonFieldOf(reason))
    ensures !memberOnlyCall || target in ctx.members ==>
              var c := if target in ctx.members then 2 else 1;
              && |r.0| > c && r.0[c] == BanCall(target, days)
              && (r.1 == Raised <==> target in world.failing)
              && (r.1 == Raised ==> |r.0| == c + 1)
              && (r.1 == Completed ==> |r.0| > c + 1 && r.0[c + 1] == Say(BannedDeleting(target, days)))
    ensures memberOnlyCall && target !in ctx.members ==>
              r.1 == Raised && r.0 == [LogWrite(target, Bans, LoggedReason(ctx, reason))]
    ensures Sequenced(r.0)
  {
    var stored := LoggedReason(ctx, reason);
    if memberOnlyCall && target !in ctx.members then ([LogWrite(target, Bans, stored)], Raised)
    else
      LogThenActEffects(ctx, world, target, Bans, stored, BanDmStep(ctx, world, target, reason),
                        BanCall(target, days), BannedDeleting(target, days), BanTitle, ReasonFieldOf(reason))
  }

  /** `dban`: the guard, then the day count (checked before the log write), then one
      ban event is logged and the effects above follow. */
  function DBanWith(store: Store, ctx: Ctx, world: World, days: int, target: UserId, reason: string, memberOnlyCall: bool)
    : (o: Outcome)
    ensures Guard(ctx, target) != Allowed ==>
              o.store == store && o.status == Denied && o.effects == [Say(RefusalReply(Guard(ctx, target), "ban"))]
    ensures Guard(ctx, target) == Allowed && (days < 0 || days > 7) ==>
              o.store == store && o.status == Denied && o.effects == [Say(DayCountOutOfRange)]
    ensures o.status != Denied ==>
              && Guard(ctx, target) == Allowed && 0 <= days <= 7
              && LoggedOnce(store, o.store, ctx, target, Bans, LoggedReason(ctx, reason))
              && (o.effects, o.status) == DBanEffects(ctx, world, days, target, reason, memberOnlyCall)
    ensures Sequenced(o.effects)
  {
    var v := Guard(ctx, target);
    if v != Allowed then Outcome(store, [Say(RefusalReply(v, "ban"))], Denied)
    else if days < 0 || days > 7 then Outcome(store, [Say(DayCountOutOfRange)], Denied)
    else
      var r := DBanEffects(ctx, world, days, target, reason, memberOnlyCall);
      Outcome(AddUserlog(store, ctx.guild, target, Bans, EventBy(ctx, LoggedReason(ctx, reason))).0, r.0, r.1)
  }

  /** `dban` as written: `target.ban(...)` on a target that is not a current member. */
  function DBanAsWritten(store: Store, ctx: Ctx, world: World, days: int, target: UserId, reason: string): (o: Outcome)
    ensures Guard(ctx, target) == Allowed && 0 <= days <= 7 && target !in ctx.members ==>
              && o.status == Raised
              && LoggedOnce(store, o.store, ctx, target, Bans, LoggedReason(ctx, reason))
              && forall e :: e in o.effects ==> !e.BanCall?
  {
    DBanWith(store, ctx, world, days, target, reason, true)
  }

  /** `dban` with the ban made through the guild, so it reaches non-members as well:
      every logged dban is followed by a ban call with the requested day count. */
  function DBan(store: Store, ctx: Ctx, world: World, days: int, target: UserId, reason: string): (o: Outcome)
    ensures o.status != Denied ==>
              && BanCall(target, days) in o.effects
              && (o.status == Raised <==> target in world.failing)
  {
    var o := DBanWith(store, ctx, world, days, target, reason, false);
    assert o.status != Denied ==> o.effects[if target in ctx.members then 2 else 1] == BanCall(target, days);
    o
  }

  /** `sban`: like ban but without any direct message. */
  function SBan(store: Store, ctx: Ctx, world: World, target: UserId, reason: string): (o: Outcome)
    ensures o.status == Denied <==> Guard(ctx, target) != Allowed
    ensures o.status == Denied ==>
              o.store == store && o.effects == [Say(RefusalReply(Guard(ctx, target), "ban"))]
    ensures o.status != Denied ==>
              && LoggedOnce(store, o.store, ctx, target, Bans, LoggedReason(ctx, reason))
              && |o.effects| >= 2
              && o.effects[0] == LogWrite(target, Bans, LoggedReason(ctx, reason))
              && o.effects[1] == BanCall(target, 0)
              && (o.status == Raised <==> target in world.failing)
              && (o.status == Raised ==> |o.effects| == 2)
              && (o.status == Completed ==> |o.effects| >= 3 && o.effects[2] == Say(SilentlyBanned(target)))
              && (EndsWithAudit(o.effects) <==> o.status == Completed && IsSetId(ctx.config.modlog))
              && (EndsWithAudit(o.effects) ==>
                    o.effects[|o.effects| - 1] == Audit(ctx.config.modlog.value, SilentBanTitle, target, ReasonFieldOf(reason)))
    ensures NoDm(o.effects)
    ensures Sequenced(o.effects)
  {
    var v := Guard(ctx, target);
    if v != Allowed then Outcome(store, [Say(RefusalReply(v, "ban"))], Denied)
    else
      var o := LogThenAct(store, ctx, world, target, Bans, LoggedReason(ctx, reason), [],
                          BanCall(target, 0), SilentlyBanned(target), SilentBanTitle, ReasonFieldOf(reason));
      o
  }

  /** `unban`: no guard, no log entry, no direct message; unban, reply, mod-log post. */
  function Unban(store: Store, ctx: Ctx, world: World, target: UserId, reason: string): (o: Outcome)
    ensures o.store == store
    ensures o.status != Denied
    ensures |o.effects| > 0 && o.effects[0] == UnbanCall(target)
    ensures NoLogWrite(o.effects) && NoDm(o.effects)
    ensures o.status == Raised <==> target in world.failing
    ensures o.status == Raised ==> o.effects == [UnbanCall(target)]
    ensures o.status == Completed ==> |o.effects| >= 2 && o.effects[1] == Say(Unbanned(target))
    ensures EndsWithAudit(o.effects) <==> o.status == Completed && IsSetId(ctx.config.modlog)
    ensures EndsWithAudit(o.effects) ==>
              o.effects[|o.effects| - 1] == Audit(ctx.config.modlog.value, UnbanTitle, target, ReasonFieldOf(reason))
    ensures Sequenced(o.effects)
  {
    var tail := ActAndReport(ctx, world, UnbanCall(target), Unbanned(target), UnbanTitle, ReasonFieldOf(reason));
    Outcome(store, tail.0, tail.1)
  }

  /** The effects of a warn that passed its guard, given the new warn count `n`. */
  function WarnEffects(ctx: Ctx, world: World, target: UserId, reason: string, n: nat): (es: seq<Effect>)
    ensures |es| >= 2
    ensures es[0] == LogWrite(target, Warns, LoggedReason(ctx, reason))
    ensures Say(Warned(target, n)) in es
    ensures DmAttempted(es) <==> target in ctx.members
    ensures target in ctx.members ==>
              es[1] == Dm(target, WarnDm(GivenText(reason), ConfiguredUrl(ctx.config.rulesUrl), n), world.dm)
    ensures EndsWithAudit(es) <==> IsSetId(ctx.config.modlog)
    ensures IsSetId(ctx.config.modlog) ==>
              es[|es| - 1] == Audit(ctx.config.modlog.value, WarnTitle(n), target, ReasonFieldOf(reason))
    ensures Sequenced(es)
  {
    var dm := if target in ctx.members
              then [Dm(target, WarnDm(GivenText(reason), ConfiguredUrl(ctx.config.rulesUrl), n), world.dm)]
              else [];
    var tail := [Say(Warned(target, n))] + AuditStep(ctx, WarnTitle(n), target, ReasonFieldOf(reason));
    SequencedShape(LogWrite(target, Warns, LoggedReason(ctx, reason)), dm, tail);
    [LogWrite(target, Warns, LoggedReason(ctx, reason))] + dm + tail
  }

  /** `warn`: guard (its staff refusal says "ban"); log; the new warn count N returned
      by the log write; direct message to current members carrying "warn #N" and the
      rules URL when configured; reply with N; mod-log post titled "Warn #N". */
  function Warn(store: Store, ctx: Ctx, world: World, target: UserId, reason: string): (o: Outcome)
    ensures o.status != Raised
    ensures o.status == Denied <==> Guard(ctx, target) != Allowed
    ensures o.status == Denied ==>
              o.store == store && o.effects == [Say(RefusalReply(Guard(ctx, target), "ban"))]
    ensures o.status == Completed ==>
              var n := |Events(o.store, ctx.guild, target, Warns)|;
              && LoggedOnce(store, o.store, ctx, target, Warns, LoggedReason(ctx, reason))
              && n == |Events(store, ctx.guild, target, Warns)| + 1
              && |o.effects| >= 2
              && o.effects[0] == LogWrite(target, Warns, LoggedReason(ctx, reason))
              && Say(Warned(target, n)) in o.effects
              && (DmAttempted(o.effects) <==> target in ctx.members)
              && (target in ctx.members ==>
                    o.effects[1] == Dm(target, WarnDm(GivenText(reason), ConfiguredUrl(ctx.config.rulesUrl), n), world.dm))
              && (EndsWithAudit(o.effects) <==> IsSetId(ctx.config.modlog))
              && (IsSetId(ctx.config.modlog) ==>
                    o.effects[|o.effects| - 1] == Audit(ctx.config.modlog.value, WarnTitle(n), target, ReasonFieldOf(reason)))
    ensures Sequenced(o.effects)
  {
    var v := Guard(ctx, target);
    if v != Allowed then Outcome(store, [Say(RefusalReply(v, "ban"))], Denied)
    else
      var (st, n) := AddUserlog(store, ctx.guild, target, Warns, EventBy(ctx, LoggedReason(ctx, reason)));
      Outcome(st, WarnEffects(ctx, world, target, reason, n), Completed)
  }

  /** `note`: no guard; log the note text verbatim (even when empty); reply. */
  function Note(store: Store, ctx: Ctx, target: UserId, note: string): (o: Outcome)
    ensures o.status == Completed
    ensures LoggedOnce(store, o.store, ctx, target, Notes, note)
    ensures o.effects == [LogWrite(target, Notes, note), Say(Noted)]
  {
    Outcome(AddUserlog(store, ctx.guild, target, Notes, EventBy(ctx, note)).0,
            [LogWrite(target, Notes, note), Say(Noted)], Completed)
  }

  /** Whether massban acts on `t` (after resolving it). `botCheck` says whether the
      bot comparison takes effect. */
  predicate MassbanActsOn(ctx: Ctx, t: UserId, botCheck: bool)
  {
    t != ctx.actor && !(botCheck && t == ctx.bot) && !StaffMember(ctx, t)
  }

  /** The reply for an id massban skips: the issuer, the bot (when the comparison takes
      effect), or a staff member, checked in that order. */
  function SkipReply(ctx: Ctx, t: UserId, botCheck: bool): Reply
  {
    if t == ctx.actor then SelfRefusal
    else if botCheck && t == ctx.bot then BotRefusal
    else MassbanStaffRefusal(t)
  }

  /** The massban loop over the remaining ids. Returns the files, the effects and
      whether an exception ended the loop. There is no per-target isolation: an id
      `fetch_user` cannot resolve, or a ban call that raises, ends the whole command. */
  function MassbanLoop(store: Store, ctx: Ctx, world: World, targets: seq<UserId>, botCheck: bool)
    : (r: (Store, seq<Effect>, bool))
    decreases |targets|
  {
    if |targets| == 0 then (store, [], false)
    else
      var t := targets[0];
      if t in world.unresolved then (store, [], true)
      else if !MassbanActsOn(ctx, t, botCheck) then
        var rest := MassbanLoop(store, ctx, world, targets[1..], botCheck);
        (rest.0, [Say(SkipReply(ctx, t, botCheck))] + rest.1, rest.2)
      else
        var st := AddUserlog(store, ctx.guild, t, Bans, EventBy(ctx, MassbanReason(ctx))).0;
        var acted := [LogWrite(t, Bans, MassbanReason(ctx)), BanCall(t, 0)];
        if t in world.failing then (st, acted, true)
        else
          var rest := MassbanLoop(st, ctx, world, targets[1..], botCheck);
          (rest.0, acted + AuditStep(ctx, MassbanTitle, t, NoReasonField) + rest.1, rest.2)
  }

  /** `massban` over already parsed ids: "in progress" message, the loop, and, when the
      loop ran to the end, "All N users are now BANNED." with N the number of ids given
      (skipped ids included). */
  function MassbanWith(store: Store, ctx: Ctx, world: World, targets: seq<UserId>, botCheck: bool): (o: Outcome)
    ensures |o.effects| > 0 && o.effects[0] == Say(MassbanStarted)
    ensures o.status != Denied
    ensures o.status == Completed <==> o.effects[|o.effects| - 1] == Say(MassbanDone(|targets|))
  {
    var (st, es, raised) := MassbanLoop(store, ctx, world, targets, botCheck);
    if raised then
      LoopNeverSaysDone(store, ctx, world, targets, botCheck);
      Outcome(st, [Say(MassbanStarted)] + es, Raised)
    else Outcome(st, [Say(MassbanStarted)] + es + [Say(MassbanDone(|targets|))], Completed)
  }

  lemma {:induction false} LoopNeverSaysDone(store: Store, ctx: Ctx, world: World, targets: seq<UserId>, botCheck: bool)
    ensures forall e :: e in MassbanLoop(store, ctx, world, targets, botCheck).1 ==> !(e.Say? && e.reply.MassbanDone?)
    decreases |targets|
  {
    if |targets| > 0 && targets[0] !in world.unresolved {
      var t := targets[0];
      if MassbanActsOn(ctx, t, botCheck) {
        var st := AddUserlog(store, ctx.guild, t, Bans, EventBy(ctx, MassbanReason(ctx))).0;
        LoopNeverSaysDone(st, ctx, world, targets[1..], botCheck);
      } else {
        LoopNeverSaysDone(store, ctx, world, targets[1..], botCheck);
      }
    }
  }

  /** `massban` as written: the bot comparison compares an id with the bot's user
      object and never matches, so the bot's own id is not skipped. */
  function MassbanAsWritten(store: Store, ctx: Ctx, world: World, targets: seq<UserId>): (o: Outcome)
    ensures |o.effects| > 0 && o.effects[0] == Say(MassbanStarted)
  {
    MassbanWith(store, ctx, world, targets, false)
  }

  /** `massban` with the bot comparison made on ids, as the other commands do. */
  function Massban(store: Store, ctx: Ctx, world: World, targets: seq<UserId>): (o: Outcome)
    ensures |o.effects| > 0 && o.effects[0] == Say(MassbanStarted)
  {
    MassbanWith(store, ctx, world, targets, true)
  }

  /** The targets of the log writes, in order. */
  function LoggedTargets(es: seq<Effect>): (ts: seq<UserId>)
  {
    if |es| == 0 then [] else LoggedOf(es[0]) + LoggedTargets(es[1..])
  }

  function LoggedOf(e: Effect): seq<UserId>
  {
    if e.LogWrite? then [e.target] else []
  }

  /** The targets of the ban calls, in order. */
  function BannedTargets(es: seq<Effect>): (ts: seq<UserId>)
  {
    if |es| == 0 then [] else BannedOf(es[0]) + BannedTargets(es[1..])
  }

  function BannedOf(e: Effect): seq<UserId>
  {
    if e.BanCall? then [e.target] else []
  }

  lemma {:induction false} LoggedTargetsAppend(a: seq<Effect>, b: seq<Effect>)
    ensures LoggedTargets(a + b) == LoggedTargets(a) + LoggedTargets(b)
    decreases |a|
  {
    if |a| == 0 {
      assert a + b == b;
    } else {
      var c := a + b;
      assert c[0] == a[0];
      assert c[1..] == a[1..] + b;
      LoggedTargetsAppend(a[1..], b);
      var h := LoggedOf(a[0]);
      assert LoggedTargets(c) == h + LoggedTargets(a[1..] + b);
      assert LoggedTargets(a) == h + LoggedTargets(a[1..]);
      assert h + (LoggedTargets(a[1..]) + LoggedTargets(b)) == (h + LoggedTargets(a[1..])) + LoggedTargets(b);
    }
  }

  lemma {:induction false} BannedTargetsAppend(a: seq<Effect>, b: seq<Effect>)
    ensures BannedTargets(a + b) == BannedTargets(a) + BannedTargets(b)
    decreases |a|
  {
    if |a| == 0 {
      assert a + b == b;
    } else {
      var c := a + b;
      assert c[0] == a[0];
      assert c[1..] == a[1..] + b;
      BannedTargetsAppend(a[1..], b);
      var h := BannedOf(a[0]);
      assert BannedTargets(c) == h + BannedTargets(a[1..] + b);
      assert BannedTargets(a) == h + BannedTargets(a[1..]);
      assert h + (BannedTargets(a[1..]) + BannedTargets(b)) == (h + BannedTargets(a[1..])) + BannedTargets(b);
    }
  }

  lemma TargetsOfSingle(e: Effect)
    ensures LoggedTargets([e]) == (if e.LogWrite? then [e.target] else [])
    ensures BannedTargets([e]) == (if e.BanCall? then [e.target] else [])
  {
    assert [e][1..] == [];
  }

  /** The log write and ban call massban makes for one id. */
  lemma TargetsOfActed(ctx: Ctx, t: UserId)
    ensures LoggedTargets([LogWrite(t, Bans, MassbanReason(ctx)), BanCall(t, 0)]) == [t]
    ensures BannedTargets([LogWrite(t, Bans, MassbanReason(ctx)), BanCall(t, 0)]) == [t]
  {
    var a := LogWrite(t, Bans, MassbanReason(ctx));
    var b := BanCall(t, 0);
    assert [a, b] == [a] + [b];
    LoggedTargetsAppend([a], [b]);
    BannedTargetsAppend([a], [b]);
    TargetsOfSingle(a);
    TargetsOfSingle(b);
  }

  lemma AuditStepLogsNothing(ctx: Ctx, t: UserId)
    ensures LoggedTargets(AuditStep(ctx, MassbanTitle, t, NoReasonField)) == []
    ensures BannedTargets(AuditStep(ctx, MassbanTitle, t, NoReasonField)) == []
  {
  }

  /** The ids massban acts on, in order, duplicates kept. */
  function ActedOn(ctx: Ctx, targets: seq<UserId>, botCheck: bool): (ts: seq<UserId>)
    ensures |ts| <= |targets|
    ensures forall i :: 0 <= i < |ts| ==> ts[i] in targets && MassbanActsOn(ctx, ts[i], botCheck)
  {
    if |targets| == 0 then []
    else (if MassbanActsOn(ctx, targets[0], botCheck) then [targets[0]] else []) + ActedOn(ctx, targets[1..], botCheck)
  }

  /** When every id resolves and no ban call raises, massban writes one log entry and
      makes one ban call per id it acts on (issuer, self and staff members skipped),
      in the order given. */
  lemma {:induction false} MassbanActsOnEligible(store: Store, ctx: Ctx, world: World, targets: seq<UserId>, botCheck: bool)
    requires forall i :: 0 <= i < |targets| ==> targets[i] !in world.unresolved && targets[i] !in world.failing
    ensures var r := MassbanLoop(store, ctx, world, targets, botCheck);
            && !r.2
            && LoggedTargets(r.1) == ActedOn(ctx, targets, botCheck)
            && BannedTargets(r.1) == ActedOn(ctx, targets, botCheck)
    decreases |targets|
  {
    if |targets| > 0 {
      var t := targets[0];
      if MassbanActsOn(ctx, t, botCheck) {
        var st := AddUserlog(store, ctx.guild, t, Bans, EventBy(ctx, MassbanReason(ctx))).0;
        MassbanActsOnEligible(st, ctx, world, targets[1..], botCheck);
        var rest := MassbanLoop(st, ctx, world, targets[1..], botCheck);
        var acted := [LogWrite(t, Bans, MassbanReason(ctx)), BanCall(t, 0)];
        var audit := AuditStep(ctx, MassbanTitle, t, NoReasonField);
        LoggedTargetsAppend(acted + audit, rest.1);
        LoggedTargetsAppend(acted, audit);
        BannedTargetsAppend(acted + audit, rest.1);
        BannedTargetsAppend(acted, audit);
        AuditStepLogsNothing(ctx, t);
        TargetsOfActed(ctx, t);
      } else {
        MassbanActsOnEligible(store, ctx, world, targets[1..], botCheck);
        var rest := MassbanLoop(store, ctx, world, targets[1..], botCheck);
        var say := [Say(SkipReply(ctx, t, botCheck))];
        LoggedTargetsAppend(say, rest.1);
        BannedTargetsAppend(say, rest.1);
        TargetsOfSingle(say[0]);
      }
    }
  }

  /** Every log write and ban call in `es` is aimed at an id massban acts on. */
  predicate OnlyActedOn(ctx: Ctx, es: seq<Effect>, botCheck: bool)
  {
    forall e :: e in es && (e.LogWrite? || e.BanCall?) ==> MassbanActsOn(ctx, e.target, botCheck)
  }

  /** Whatever the platform answers, massban never logs or bans the issuer or a
      current staff member. */
  lemma {:induction false} MassbanSparesActorAndStaff(store: Store, ctx: Ctx, world: World, targets: seq<UserId>, botCheck: bool)
    ensures OnlyActedOn(ctx, MassbanLoop(store, ctx, world, targets, botCheck).1, botCheck)
    decreases |targets|
  {
    if |targets| > 0 && targets[0] !in world.unresolved {
      var t := targets[0];
      if MassbanActsOn(ctx, t, botCheck) {
        if t !in world.failing {
          var st := AddUserlog(store, ctx.guild, t, Bans, EventBy(ctx, MassbanReason(ctx))).0;
          MassbanSparesActorAndStaff(st, ctx, world, targets[1..], botCheck);
        }
      } else {
        MassbanSparesActorAndStaff(store, ctx, world, targets[1..], botCheck);
      }
    }
  }

  /** Every entry massban writes is a ban event carrying the fixed massban text. */
  lemma {:induction false} MassbanLogsFixedReason(store: Store, ctx: Ctx, world: World, targets: seq<UserId>, botCheck: bool)
    ensures forall e :: e in MassbanLoop(store, ctx, world, targets, botCheck).1 && e.LogWrite? ==>
              e.kind == Bans && e.reason == MassbanReason(ctx)
    decreases |targets|
  {
    if |targets| > 0 && targets[0] !in world.unresolved {
      var t := targets[0];
      if MassbanActsOn(ctx, t, botCheck) {
        if t !in world.failing {
          var st := AddUserlog(store, ctx.guild, t, Bans, EventBy(ctx, MassbanReason(ctx))).0;
          MassbanLogsFixedReason(st, ctx, world, targets[1..], botCheck);
        }
      } else {
        MassbanLogsFixedReason(store, ctx, world, targets[1..], botCheck);
      }
    }
  }

  /** The corrected massban never logs or bans the bot account. */
  lemma MassbanSparesBot(store: Store, ctx: Ctx, world: World, targets: seq<UserId>)
    ensures var es := Massban(store, ctx, world, targets).effects;
            && LogWrite(ctx.bot, Bans, MassbanReason(ctx)) !in es
            && BanCall(ctx.bot, 0) !in es
  {
    MassbanSparesActorAndStaff(store, ctx, world, targets, true);
  }

  /** As written, massban over the bot's own id logs a ban against the bot and calls
      the ban on it, whenever the bot is neither the issuer nor a staff member. */
  lemma MassbanAsWrittenBansBot(store: Store, ctx: Ctx, world: World)
    requires ctx.bot != ctx.actor && !StaffMember(ctx, ctx.bot)
    requires ctx.bot !in world.unresolved && ctx.bot !in world.failing
    ensures var o := MassbanAsWritten(store, ctx, world, [ctx.bot]);
            && LogWrite(ctx.bot, Bans, MassbanReason(ctx)) in o.effects
            && BanCall(ctx.bot, 0) in o.effects
  {
    var o := MassbanAsWritten(store, ctx, world, [ctx.bot]);
    assert o.effects[1] == LogWrite(ctx.bot, Bans, MassbanReason(ctx));
    assert o.effects[2] == BanCall(ctx.bot, 0);
  }

  /** One step of the loop over an id massban acts on and whose ban does not raise. */
  lemma MassbanLoopActs(store: Store, ctx: Ctx, world: World, targets: seq<UserId>, botCheck: bool)
    requires |targets| > 0 && targets[0] !in world.unresolved && targets[0] !in world.failing
    requires MassbanActsOn(ctx, targets[0], botCheck)
    ensures var t := targets[0];
            var st := AddUserlog(store, ctx.guild, t, Bans, EventBy(ctx, MassbanReason(ctx))).0;
            var rest := MassbanLoop(st, ctx, world, targets[1..], botCheck);
            MassbanLoop(store, ctx, world, targets, botCheck) ==
              (rest.0, [LogWrite(t, Bans, MassbanReason(ctx)), BanCall(t, 0)] + AuditStep(ctx, MassbanTitle, t, NoReasonField) + rest.1, rest.2)
  {
  }

  /** One step of the loop over an id massban skips. */
  lemma MassbanLoopSkips(store: Store, ctx: Ctx, world: World, targets: seq<UserId>, botCheck: bool)
    requires |targets| > 0 && targets[0] !in world.unresolved
    requires !MassbanActsOn(ctx, targets[0], botCheck)
    ensures var rest := MassbanLoop(store, ctx, world, targets[1..], botCheck);
            MassbanLoop(store, ctx, world, targets, botCheck) ==
              (rest.0, [Say(SkipReply(ctx, targets[0], botCheck))] + rest.1, rest.2)
  {
  }

  /** The loop over `pre + post` as the loop over `pre` followed by the loop over
      `post` from the files `pre` left. */
  predicate LoopSplits(store: Store, ctx: Ctx, world: World, pre: seq<UserId>, post: seq<UserId>, botCheck: bool)
  {
    var a := MassbanLoop(store, ctx, world, pre, botCheck);
    var b := MassbanLoop(a.0, ctx, world, post, botCheck);
    MassbanLoop(store, ctx, world, pre + post, botCheck) == (b.0, a.1 + b.1, b.2)
  }

  /** Running the loop over `pre + post` is running it over `pre` and then over
      `post` from the files `pre` left, when nothing in `pre` ends the loop. */
  lemma {:induction false} MassbanLoopPrefix(store: Store, ctx: Ctx, world: World, pre: seq<UserId>, post: seq<UserId>, botCheck: bool)
    requires forall i :: 0 <= i < |pre| ==> pre[i] !in world.unresolved && pre[i] !in world.failing
    ensures LoopSplits(store, ctx, world, pre, post, botCheck)
    decreases |pre|
  {
    if |pre| == 0 {
      assert pre + post == post;
      var b := MassbanLoop(store, ctx, world, post, botCheck);
      assert [] + b.1 == b.1;
    } else {
      var t := pre[0];
      if MassbanActsOn(ctx, t, botCheck) {
        var st := AddUserlog(store, ctx.guild, t, Bans, EventBy(ctx, MassbanReason(ctx))).0;
        MassbanLoopPrefix(st, ctx, world, pre[1..], post, botCheck);
        PrefixActsStep(store, ctx, world, pre, post, botCheck);
      } else {
        MassbanLoopPrefix(store, ctx, world, pre[1..], post, botCheck);
        PrefixSkipsStep(store, ctx, world, pre, post, botCheck);
      }
    }
  }

  /** The sequence algebra of one loop step: a head prepended to both runs. */
  lemma PrependStep(head: seq<Effect>, a': (Store, seq<Effect>, bool), b: (Store, seq<Effect>, bool),
                    r: (Store, seq<Effect>, bool), a: (Store, seq<Effect>, bool), all: (Store, seq<Effect>, bool))
    requires r == (b.0, a'.1 + b.1, b.2)
    requires a == (a'.0, head + a'.1, a'.2)
    requires all == (r.0, head + r.1, r.2)
    ensures all == (b.0, a.1 + b.1, b.2)
  {
    assert head + (a'.1 + b.1) == (head + a'.1) + b.1;
  }

  lemma TailOfConcat(pre: seq<UserId>, post: seq<UserId>)
    requires |pre| > 0
    ensures (pre + post)[0] == pre[0] && (pre + post)[1..] == pre[1..] + post
  {
  }

  lemma PrefixActsStep(store: Store, ctx: Ctx, world: World, pre: seq<UserId>, post: seq<UserId>, botCheck: bool)
    requires |pre| > 0 && pre[0] !in world.unresolved && pre[0] !in world.failing
    requires MassbanActsOn(ctx, pre[0], botCheck)
    requires LoopSplits(AddUserlog(store, ctx.guild, pre[0], Bans, EventBy(ctx, MassbanReason(ctx))).0, ctx, world, pre[1..], post, botCheck)
    ensures LoopSplits(store, ctx, world, pre, post, botCheck)
  {
    var t := pre[0];
    TailOfConcat(pre, post);
    var st := AddUserlog(store, ctx.guild, t, Bans, EventBy(ctx, MassbanReason(ctx))).0;
    var head := [LogWrite(t, Bans, MassbanReason(ctx)), BanCall(t, 0)] + AuditStep(ctx, MassbanTitle, t, NoReasonField);
    MassbanLoopActs(store, ctx, world, pre, botCheck);
    MassbanLoopActs(store, ctx, world, pre + post, botCheck);
    var a' := MassbanLoop(st, ctx, world, pre[1..], botCheck);
    PrependStep(head, a', MassbanLoop(a'.0, ctx, world, post, botCheck), MassbanLoop(st, ctx, world, pre[1..] + post, botCheck),
                MassbanLoop(store, ctx, world, pre, botCheck), MassbanLoop(store, ctx, world, pre + post, botCheck));
  }

  lemma PrefixSkipsStep(store: Store, ctx: Ctx, world: World, pre: seq<UserId>, post: seq<UserId>, botCheck: bool)
    requires |pre| > 0 && pre[0] !in world.unresolved
    requires !MassbanActsOn(ctx, pre[0], botCheck)
    requires LoopSplits(store, ctx, world, pre[1..], post, botCheck)
    ensures LoopSplits(store, ctx, world, pre, post, botCheck)
  {
    TailOfConcat(pre, post);
    var head := [Say(SkipReply(ctx, pre[0], botCheck))];
    MassbanLoopSkips(store, ctx, world, pre, botCheck);
    MassbanLoopSkips(store, ctx, world, pre + post, botCheck);
    var a' := MassbanLoop(store, ctx, world, pre[1..], botCheck);
    PrependStep(head, a', MassbanLoop(a'.0, ctx, world, post, botCheck), MassbanLoop(store, ctx, world, pre[1..] + post, botCheck),
                MassbanLoop(store, ctx, world, pre, botCheck), MassbanLoop(store, ctx, world, pre + post, botCheck));
  }

  /** No per-target isolation: when the ban call for `t` raises, after every earlier
      id resolved and was banned without error, massban ends right there. Exactly the
      earlier ids it acted on and `t` are logged and banned, and no later id is. */
  lemma MassbanStopsAtFailure(store: Store, ctx: Ctx, world: World, pre: seq<UserId>, t: UserId, rest: seq<UserId>, botCheck: bool)
    requires forall i :: 0 <= i < |pre| ==> pre[i] !in world.unresolved && pre[i] !in world.failing
    requires t !in world.unresolved && t in world.failing && MassbanActsOn(ctx, t, botCheck)
    ensures var o := MassbanWith(store, ctx, world, pre + [t] + rest, botCheck);
            && o.status == Raised
            && LoggedTargets(o.effects) == ActedOn(ctx, pre, botCheck) + [t]
            && BannedTargets(o.effects) == ActedOn(ctx, pre, botCheck) + [t]
  {
    var post := [t] + rest;
    assert pre + [t] + rest == pre + post;
    var a := MassbanLoop(store, ctx, world, pre, botCheck);
    LoopRaisesAtFirst(a.0, ctx, world, t, rest, botCheck);
    MassbanLoopPrefix(store, ctx, world, pre, post, botCheck);
    MassbanActsOnEligible(store, ctx, world, pre, botCheck);
    MassbanRaisedEffects(store, ctx, world, pre + post, botCheck);
    TargetsOfRaised(ctx, a.1, t);
  }

  /** The loop over a list whose first id massban acts on and whose ban raises. */
  lemma LoopRaisesAtFirst(store: Store, ctx: Ctx, world: World, t: UserId, rest: seq<UserId>, botCheck: bool)
    requires t !in world.unresolved && t in world.failing && MassbanActsOn(ctx, t, botCheck)
    ensures var r := MassbanLoop(store, ctx, world, [t] + rest, botCheck);
            r.1 == [LogWrite(t, Bans, MassbanReason(ctx)), BanCall(t, 0)] && r.2
  {
    assert ([t] + rest)[0] == t;
  }

  /** The logged and banned targets of a raised massban whose loop acted on `es`
      and then on `t`. */
  lemma TargetsOfRaised(ctx: Ctx, es: seq<Effect>, t: UserId)
    ensures var all := [Say(MassbanStarted)] + (es + [LogWrite(t, Bans, MassbanReason(ctx)), BanCall(t, 0)]);
            && LoggedTargets(all) == LoggedTargets(es) + [t]
            && BannedTargets(all) == BannedTargets(es) + [t]
  {
    var start := [Say(MassbanStarted)];
    var acted := [LogWrite(t, Bans, MassbanReason(ctx)), BanCall(t, 0)];
    LoggedTargetsAppend(start, es + acted);
    LoggedTargetsAppend(es, acted);
    BannedTargetsAppend(start, es + acted);
    BannedTargetsAppend(es, acted);
    TargetsOfSingle(Say(MassbanStarted));
    TargetsOfActed(ctx, t);
    assert LoggedTargets(start) == [];
  }

  /** A massban whose loop raised reports the loop's effects after the opening message. */
  lemma MassbanRaisedEffects(store: Store, ctx: Ctx, world: World, targets: seq<UserId>, botCheck: bool)
    requires MassbanLoop(store, ctx, world, targets, botCheck).2
    ensures var o := MassbanWith(store, ctx, world, targets, botCheck);
            o.status == Raised && o.effects == [Say(MassbanStarted)] + MassbanLoop(store, ctx, world, targets, botCheck).1
  {
  }

  /** `n` copies of one event. */
  function Copies(e: Event, n: nat): (r: seq<Event>)
    ensures |r| == n && forall i :: 0 <= i < n ==> r[i] == e
  {
    if n == 0 then [] else [e] + Copies(e, n - 1)
  }

  /** The ids acted on, split at the first id. */
  lemma ActedOnCons(ctx: Ctx, targets: seq<UserId>, botCheck: bool, u: UserId)
    requires |targets| > 0
    ensures multiset(ActedOn(ctx, targets, botCheck))[u] ==
              (if MassbanActsOn(ctx, targets[0], botCheck) && u == targets[0] then 1 else 0)
              + multiset(ActedOn(ctx, targets[1..], botCheck))[u]
  {
    var h := if MassbanActsOn(ctx, targets[0], botCheck) then [targets[0]] else [];
    assert ActedOn(ctx, targets, botCheck) == h + ActedOn(ctx, targets[1..], botCheck);
  }

  /** The list algebra of one massban step on one user's ban list. */
  lemma AppendCopies(s0: seq<Event>, s1: seq<Event>, s2: seq<Event>, e: Event, m: nat, hit: bool)
    requires s1 == s0 + (if hit then [e] else [])
    requires s2 == s1 + Copies(e, m)
    ensures s2 == s0 + Copies(e, m + (if hit then 1 else 0))
  {
    if hit {
      assert Copies(e, m + 1) == [e] + Copies(e, m);
      assert s0 + [e] + Copies(e, m) == s0 + ([e] + Copies(e, m));
    }
  }

  /** User `u`'s list of kind `k` in guild `g` after the loop: the old list plus one
      massban ban event per time `u` was acted on, when `g` is the command's guild
      and `k` is bans; the old list otherwise. */
  predicate StoreGainsActed(store: Store, ctx: Ctx, world: World, targets: seq<UserId>, botCheck: bool,
                            g: GuildId, u: UserId, k: Kind)
  {
    Events(MassbanLoop(store, ctx, world, targets, botCheck).0, g, u, k) ==
      Events(store, g, u, k) +
      (if g == ctx.guild && k == Bans
       then Copies(EventBy(ctx, MassbanReason(ctx)), multiset(ActedOn(ctx, targets, botCheck))[u])
       else [])
  }

  /** When every id resolves and no ban raises, the files after massban hold, for
      each user, one more ban event with the massban text per time that user's id
      was acted on, appended after their old bans; every other list of every user
      and every other guild's file is unchanged. */
  lemma {:induction false} MassbanStoreLogsActed(store: Store, ctx: Ctx, world: World, targets: seq<UserId>, botCheck: bool,
                                                 g: GuildId, u: UserId, k: Kind)
    requires forall i :: 0 <= i < |targets| ==> targets[i] !in world.unresolved && targets[i] !in world.failing
    ensures StoreGainsActed(store, ctx, world, targets, botCheck, g, u, k)
    decreases |targets|
  {
    if |targets| == 0 {
      assert Events(store, g, u, k) + [] == Events(store, g, u, k);
    } else if MassbanActsOn(ctx, targets[0], botCheck) {
      var st := AddUserlog(store, ctx.guild, targets[0], Bans, EventBy(ctx, MassbanReason(ctx))).0;
      MassbanStoreLogsActed(st, ctx, world, targets[1..], botCheck, g, u, k);
      StoreActsStep(store, ctx, world, targets, botCheck, g, u, k);
    } else {
      MassbanStoreLogsActed(store, ctx, world, targets[1..], botCheck, g, u, k);
      StoreSkipsStep(store, ctx, world, targets, botCheck, g, u, k);
    }
  }

  lemma StoreActsStep(store: Store, ctx: Ctx, world: World, targets: seq<UserId>, botCheck: bool,
                      g: GuildId, u: UserId, k: Kind)
    requires |targets| > 0 && targets[0] !in world.unresolved && targets[0] !in world.failing
    requires MassbanActsOn(ctx, targets[0], botCheck)
    requires StoreGainsActed(AddUserlog(store, ctx.guild, targets[0], Bans, EventBy(ctx, MassbanReason(ctx))).0,
                             ctx, world, targets[1..], botCheck, g, u, k)
    ensures StoreGainsActed(store, ctx, world, targets, botCheck, g, u, k)
  {
    var t := targets[0];
    var e := EventBy(ctx, MassbanReason(ctx));
    var st := AddUserlog(store, ctx.guild, t, Bans, e).0;
    var m := multiset(ActedOn(ctx, targets[1..], botCheck))[u];
    ActedOnCons(ctx, targets, botCheck, u);
    LoopStoreActs(store, ctx, world, targets, botCheck);
    var hit := g == ctx.guild && k == Bans && u == t;
    AddOneEvent(store, g, u, k, ctx.guild, t, e);
    if g == ctx.guild && k == Bans {
      AppendCopies(Events(store, g, u, k), Events(st, g, u, k),
                   Events(MassbanLoop(st, ctx, world, targets[1..], botCheck).0, g, u, k), e, m, hit);
    }
  }

  /** The files after one acting step of the loop. */
  lemma LoopStoreActs(store: Store, ctx: Ctx, world: World, targets: seq<UserId>, botCheck: bool)
    requires |targets| > 0 && targets[0] !in world.unresolved && targets[0] !in world.failing
    requires MassbanActsOn(ctx, targets[0], botCheck)
    ensures MassbanLoop(store, ctx, world, targets, botCheck).0 ==
            MassbanLoop(AddUserlog(store, ctx.guild, targets[0], Bans, EventBy(ctx, MassbanReason(ctx))).0,
                        ctx, world, targets[1..], botCheck).0
  {
    MassbanLoopActs(store, ctx, world, targets, botCheck);
  }

  /** One list of one user after adding an event to `t`'s bans in guild `h`. */
  lemma AddOneEvent(store: Store, g: GuildId, u: UserId, k: Kind, h: GuildId, t: UserId, e: Event)
    ensures Events(AddUserlog(store, h, t, Bans, e).0, g, u, k) ==
            Events(store, g, u, k) + (if g == h && k == Bans && u == t then [e] else [])
  {
    if g == h && k == Bans && u == t {
    } else {
      assert Events(store, g, u, k) + [] == Events(store, g, u, k);
    }
  }

  lemma StoreSkipsStep(store: Store, ctx: Ctx, world: World, targets: seq<UserId>, botCheck: bool,
                       g: GuildId, u: UserId, k: Kind)
    requires |targets| > 0 && targets[0] !in world.unresolved
    requires !MassbanActsOn(ctx, targets[0], botCheck)
    requires StoreGainsActed(store, ctx, world, targets[1..], botCheck, g, u, k)
    ensures StoreGainsActed(store, ctx, world, targets, botCheck, g, u, k)
  {
    ActedOnCons(ctx, targets, botCheck, u);
    MassbanLoopSkips(store, ctx, world, targets, botCheck);
  }

  /** `dban` as written logs a ban against a non-member and then never bans them. */
  lemma DBanAsWrittenLogsWithoutBan(store: Store, ctx: Ctx, world: World, target: UserId, reason: string)
    requires target != ctx.actor && target != ctx.bot && target !in ctx.members
    ensures var o := DBanAsWritten(store, ctx, world, 3, target, reason);
            && o.status == Raised
            && Events(o.store, ctx.guild, target, Bans) == Events(store, ctx.guild, target, Bans) + [EventBy(ctx, LoggedReason(ctx, reason))]
            && BanCall(target, 3) !in o.effects
  {
  }

  /** A moderation request, after the command framework has parsed its arguments. */
  datatype Request =
    | KickReq(target: UserId, reason: string)
    | BanReq(target: UserId, reason: string)
    | DBanReq(days: int, target: UserId, reason: string)
    | SBanReq(target: UserId, reason: string)
    | UnbanReq(target: UserId, reason: string)
    | WarnReq(target: UserId, reason: string)
    | NoteReq(target: UserId, reason: string)
    | MassbanReq(targets: seq<UserId>)

  /** The command a request invokes. `corrected` selects the two commands with a
      known defect: `false` runs `dban` and `massban` as written, `true` the
      corrected versions; every other command is the same either way. */
  function Execute(store: Store, ctx: Ctx, world: World, req: Request, corrected: bool): (o: Outcome)
    ensures req.UnbanReq? ==> o.store == store && NoLogWrite(o.effects)
    ensures req.MassbanReq? ==> |o.effects| > 0 && o.effects[0] == Say(MassbanStarted)
    ensures !req.MassbanReq? ==> Sequenced(o.effects)
  {
    match req
    case KickReq(t, r) => Kick(store, ctx, world, t, r)
    case BanReq(t, r) => Ban(store, ctx, world, t, r)
    case DBanReq(d, t, r) => DBanWith(store, ctx, world, d, t, r, !corrected)
    case SBanReq(t, r) => SBan(store, ctx, world, t, r)
    case UnbanReq(t, r) => Unban(store, ctx, world, t, r)
    case WarnReq(t, r) => Warn(store, ctx, world, t, r)
    case NoteReq(t, r) => Note(store, ctx, t, r)
    case MassbanReq(ts) => MassbanWith(store, ctx, world, ts, corrected)
  }

  /** Only the guarded commands refuse, and a refusal leaves the files alone and
      writes no log entry. */
  lemma RefusalWritesNothing(store: Store, ctx: Ctx, world: World, req: Request, corrected: bool)
    ensures var o := Execute(store, ctx, world, req, corrected);
            o.status == Denied ==> Guarded(req) && o.store == store && NoLogWrite(o.effects)
  {
    match req
    case KickReq(t, r) =>
    case BanReq(t, r) =>
    case DBanReq(d, t, r) =>
    case SBanReq(t, r) =>
    case WarnReq(t, r) =>
    case UnbanReq(t, r) =>
    case NoteReq(t, r) =>
    case MassbanReq(ts) =>
  }

  /** A guarded command that goes ahead, and note, write the log entry against the
      target before any other effect. */
  lemma LogWrittenFirst(store: Store, ctx: Ctx, world: World, req: Request, corrected: bool)
    requires Guarded(req) || req.NoteReq?
    ensures var o := Execute(store, ctx, world, req, corrected);
            o.status != Denied ==> |o.effects| > 0 && o.effects[0].LogWrite? && o.effects[0].target == req.target
  {
    match req
    case KickReq(t, r) =>
    case BanReq(t, r) =>
    case DBanReq(d, t, r) =>
    case SBanReq(t, r) =>
    case WarnReq(t, r) =>
    case NoteReq(t, r) =>
  }

  /** With the bot's id absent, the bot comparison never decides anything. */
  lemma {:induction false} MassbanBotCheckIrrelevant(store: Store, ctx: Ctx, world: World, targets: seq<UserId>)
    requires ctx.bot !in targets
    ensures MassbanLoop(store, ctx, world, targets, false) == MassbanLoop(store, ctx, world, targets, true)
    decreases |targets|
  {
    if |targets| > 0 {
      assert targets[0] in targets;
      assert forall x :: x in targets[1..] ==> x in targets;
      var st := AddUserlog(store, ctx.guild, targets[0], Bans, EventBy(ctx, MassbanReason(ctx))).0;
      MassbanBotCheckIrrelevant(st, ctx, world, targets[1..]);
      MassbanBotCheckIrrelevant(store, ctx, world, targets[1..]);
    }
  }

  /** The code as written and the corrected commands differ only on the inputs of the
      two defects: a dban of a non-member and a massban listing the bot's id. */
  lemma ExecuteVariantsAgree(store: Store, ctx: Ctx, world: World, req: Request)
    requires req.DBanReq? ==> req.target in ctx.members
    requires req.MassbanReq? ==> ctx.bot !in req.targets
    ensures Execute(store, ctx, world, req, false) == Execute(store, ctx, world, req, true)
  {
    if req.MassbanReq? {
      MassbanBotCheckIrrelevant(store, ctx, world, req.targets);
    }
  }

  /** The commands that run the guard. */
  predicate Guarded(req: Request)
  {
    req.KickReq? || req.BanReq? || req.DBanReq? || req.SBanReq? || req.WarnReq?
  }

  /** Kick, ban, dban, sban and warn refuse the issuer and the bot account before any
      log write (a kick target must first resolve to a member). */
  lemma RefuseActorAndBot(store: Store, ctx: Ctx, world: World, req: Request, corrected: bool)
    requires Guarded(req) && (req.target == ctx.actor || req.target == ctx.bot)
    requires req.KickReq? ==> req.target in ctx.members
    ensures var o := Execute(store, ctx, world, req, corrected);
            && o.status == Denied
            && o.store == store
            && o.effects == [Say(if req.target == ctx.actor then SelfRefusal else BotRefusal)]
  {
  }

  /** A current member holding the staff role is refused by every guarded command, and
      the refusal comes before the dban day-count check. */
  lemma RefuseStaff(store: Store, ctx: Ctx, world: World, req: Request, corrected: bool)
    requires Guarded(req) && req.target != ctx.actor && req.target != ctx.bot
    requires StaffMember(ctx, req.target)
    ensures var o := Execute(store, ctx, world, req, corrected);
            && o.status == Denied
            && o.store == store
            && o.effects == [Say(StaffRefusal(if req.KickReq? then "kick" else "ban"))]
  {
  }

  /** unban and note have no guard: they go ahead even against the issuer, the bot
      or a staff member. */
  lemma UnguardedNeverRefuse(store: Store, ctx: Ctx, world: World, req: Request, corrected: bool)
    requires req.UnbanReq? || req.NoteReq?
    ensures Execute(store, ctx, world, req, corrected).status != Denied
  {
  }

  /** Two effect lists that agree everywhere except in the recorded outcome of
      direct messages. */
  predicate SameButDm(a: seq<Effect>, b: seq<Effect>)
  {
    && |a| == |b|
    && forall i :: 0 <= i < |a| ==>
         (a[i] == b[i] || (a[i].Dm? && b[i].Dm? && a[i].target == b[i].target && a[i].text == b[i].text))
  }

  predicate SameButDmOutcome(o1: Outcome, o2: Outcome)
  {
    o1.store == o2.store && o1.status == o2.status && SameButDm(o1.effects, o2.effects)
  }

  /** Lists that differ only in direct-message outcomes still do after concatenation. */
  lemma SameButDmConcat(a1: seq<Effect>, a2: seq<Effect>, b1: seq<Effect>, b2: seq<Effect>)
    requires SameButDm(a1, a2) && SameButDm(b1, b2)
    ensures SameButDm(a1 + b1, a2 + b2)
  {
    var c1, c2 := a1 + b1, a2 + b2;
    forall i | 0 <= i < |c1|
      ensures c1[i] == c2[i] || (c1[i].Dm? && c2[i].Dm? && c1[i].target == c2[i].target && c1[i].text == c2[i].text)
    {
      if i >= |a1| {
        assert c1[i] == b1[i - |a1|] && c2[i] == b2[i - |a1|];
      } else {
        assert c1[i] == a1[i] && c2[i] == a2[i];
      }
    }
  }

  /** The shared log-then-act step depends on the direct message only through the
      message effect it records. */
  lemma LogThenActIgnoresDm(store: Store, ctx: Ctx, w1: World, w2: World, target: UserId, k: Kind, stored: string,
                            dm1: seq<Effect>, dm2: seq<Effect>, call: Effect, reply: Reply, title: AuditTitle, field: ReasonField)
    requires AtStage(dm1, 1) && AtStage(dm2, 1) && SameButDm(dm1, dm2)
    requires (call.KickCall? || call.BanCall?) && call.target == target
    requires w1.failing == w2.failing
    ensures SameButDmOutcome(LogThenAct(store, ctx, w1, target, k, stored, dm1, call, reply, title, field),
                             LogThenAct(store, ctx, w2, target, k, stored, dm2, call, reply, title, field))
  {
    var tail := ActAndReport(ctx, w1, call, reply, title, field);
    assert tail == ActAndReport(ctx, w2, call, reply, title, field);
    var head := [LogWrite(target, k, stored)];
    SameButDmConcat(head, head, dm1, dm2);
    SameButDmConcat(head + dm1, head + dm2, tail.0, tail.0);
  }

  lemma KickIgnoresDm(store: Store, ctx: Ctx, w1: World, w2: World, t: UserId, r: string)
    requires w1.failing == w2.failing
    ensures SameButDmOutcome(Kick(store, ctx, w1, t, r), Kick(store, ctx, w2, t, r))
  {
    if t in ctx.members && Guard(ctx, t) == Allowed {
      LogThenActIgnoresDm(store, ctx, w1, w2, t, Kicks, r,
                          [Dm(t, KickDm(GivenText(r)), w1.dm)], [Dm(t, KickDm(GivenText(r)), w2.dm)],
                          KickCall(t), Kicked(t), KickTitle, ReasonFieldOf(r));
    }
  }

  lemma BanIgnoresDm(store: Store, ctx: Ctx, w1: World, w2: World, t: UserId, r: string)
    requires w1.failing == w2.failing
    ensures SameButDmOutcome(Ban(store, ctx, w1, t, r), Ban(store, ctx, w2, t, r))
  {
    if Guard(ctx, t) == Allowed {
      var dm1, dm2 := BanDmStep(ctx, w1, t, r), BanDmStep(ctx, w2, t, r);
      BanDmStepsAgree(ctx, w1, w2, t, r);
      assert Ban(store, ctx, w1, t, r) ==
             LogThenAct(store, ctx, w1, t, Bans, LoggedReason(ctx, r), dm1, BanCall(t, 0), Banned(t), BanTitle, ReasonFieldOf(r));
      assert Ban(store, ctx, w2, t, r) ==
             LogThenAct(store, ctx, w2, t, Bans, LoggedReason(ctx, r), dm2, BanCall(t, 0), Banned(t), BanTitle, ReasonFieldOf(r));
      LogThenActIgnoresDm(store, ctx, w1, w2, t, Bans, LoggedReason(ctx, r), dm1, dm2,
                          BanCall(t, 0), Banned(t), BanTitle, ReasonFieldOf(r));
    }
  }

  /** The ban direct-message steps of two worlds differ only in the recorded outcome. */
  lemma BanDmStepsAgree(ctx: Ctx, w1: World, w2: World, t: UserId, r: string)
    ensures SameButDm(BanDmStep(ctx, w1, t, r), BanDmStep(ctx, w2, t, r))
  {
  }

  lemma DBanIgnoresDm(store: Store, ctx: Ctx, w1: World, w2: World, d: int, t: UserId, r: string, memberOnlyCall: bool)
    requires w1.failing == w2.failing
    ensures SameButDmOutcome(DBanWith(store, ctx, w1, d, t, r, memberOnlyCall), DBanWith(store, ctx, w2, d, t, r, memberOnlyCall))
  {
    if Guard(ctx, t) == Allowed && 0 <= d <= 7 && (!memberOnlyCall || t in ctx.members) {
      LogThenActIgnoresDm(store, ctx, w1, w2, t, Bans, LoggedReason(ctx, r),
                          BanDmStep(ctx, w1, t, r), BanDmStep(ctx, w2, t, r),
                          BanCall(t, d), BannedDeleting(t, d), BanTitle, ReasonFieldOf(r));
    }
  }

  lemma WarnIgnoresDm(store: Store, ctx: Ctx, w1: World, w2: World, t: UserId, r: string)
    ensures SameButDmOutcome(Warn(store, ctx, w1, t, r), Warn(store, ctx, w2, t, r))
  {
  }

  /** The direct-message outcome never changes the files, the status, or any effect
      other than the recorded outcome of the message itself. */
  lemma DmOutcomeIrrelevant(store: Store, ctx: Ctx, w1: World, w2: World, req: Request, corrected: bool)
    requires w1.failing == w2.failing && w1.unresolved == w2.unresolved
    ensures SameButDmOutcome(Execute(store, ctx, w1, req, corrected), Execute(store, ctx, w2, req, corrected))
  {
    if req.KickReq? || req.BanReq? {
      KickOrBanIgnoresDm(store, ctx, w1, w2, req, corrected);
    } else if req.DBanReq? || req.WarnReq? {
      DBanOrWarnIgnoresDm(store, ctx, w1, w2, req, corrected);
    } else {
      OthersIgnoreDm(store, ctx, w1, w2, req, corrected);
    }
  }

  lemma KickOrBanIgnoresDm(store: Store, ctx: Ctx, w1: World, w2: World, req: Request, corrected: bool)
    requires w1.failing == w2.failing && w1.unresolved == w2.unresolved
    requires req.KickReq? || req.BanReq?
    ensures SameButDmOutcome(Execute(store, ctx, w1, req, corrected), Execute(store, ctx, w2, req, corrected))
  {
    if req.KickReq? {
      KickIgnoresDm(store, ctx, w1, w2, req.target, req.reason);
    } else {
      BanIgnoresDm(store, ctx, w1, w2, req.target, req.reason);
    }
  }

  lemma DBanOrWarnIgnoresDm(store: Store, ctx: Ctx, w1: World, w2: World, req: Request, corrected: bool)
    requires w1.failing == w2.failing && w1.unresolved == w2.unresolved
    requires req.DBanReq? || req.WarnReq?
    ensures SameButDmOutcome(Execute(store, ctx, w1, req, corrected), Execute(store, ctx, w2, req, corrected))
  {
    if req.DBanReq? {
      DBanIgnoresDm(store, ctx, w1, w2, req.days, req.target, req.reason, !corrected);
    } else {
      WarnIgnoresDm(store, ctx, w1, w2, req.target, req.reason);
    }
  }

  /** sban, unban, note and massban send no direct message at all. */
  lemma OthersIgnoreDm(store: Store, ctx: Ctx, w1: World, w2: World, req: Request, corrected: bool)
    requires w1.failing == w2.failing && w1.unresolved == w2.unresolved
    requires !(req.KickReq? || req.BanReq? || req.DBanReq? || req.WarnReq?)
    ensures SameButDmOutcome(Execute(store, ctx, w1, req, corrected), Execute(store, ctx, w2, req, corrected))
  {
    if req.MassbanReq? {
      MassbanIgnoresDm(store, ctx, w1, w2, req.targets, corrected);
    }
  }

  lemma {:induction false} MassbanIgnoresDm(store: Store, ctx: Ctx, w1: World, w2: World, targets: seq<UserId>, botCheck: bool)
    requires w1.failing == w2.failing && w1.unresolved == w2.unresolved
    ensures MassbanLoop(store, ctx, w1, targets, botCheck) == MassbanLoop(store, ctx, w2, targets, botCheck)
    decreases |targets|
  {
    if |targets| > 0 {
      var t := targets[0];
      var st := AddUserlog(store, ctx.guild, t, Bans, EventBy(ctx, MassbanReason(ctx))).0;
      MassbanIgnoresDm(st, ctx, w1, w2, targets[1..], botCheck);
      MassbanIgnoresDm(store, ctx, w1, w2, targets[1..], botCheck);
    }
  }

  /** A kick or ban call that raises does not undo the log entry already written. */
  lemma LogKeptWhenActionRaises(store: Store, ctx: Ctx, world: World, req: Request, corrected: bool)
    requires req.KickReq? || req.BanReq? || req.DBanReq? || req.SBanReq?
    requires Execute(store, ctx, world, req, corrected).status == Raised
    ensures var o := Execute(store, ctx, world, req, corrected);
            var k := if req.KickReq? then Kicks else Bans;
            |Events(o.store, ctx.guild, req.target, k)| == |Events(store, ctx.guild, req.target, k)| + 1
  {
  }
}

=== FILE: text.dfy ===
/** The small pieces of Python string handling the commands rely on:
    `str.lower()`, `str.split()` with no separator, and `int(token)`. */
module Text {
  import opened Common

  /** `str.lower()` on one character (ASCII letters only). */
  function LowerChar(c: char): char
  {
    if 'A' <= c <= 'Z' then (c as int + 32) as char else c
  }

  function Lower(s: string): (r: string)
    ensures |r| == |s|
    ensures forall i :: 0 <= i < |s| ==> r[i] == LowerChar(s[i])
  {
    if |s| == 0 then [] else [LowerChar(s[0])] + Lower(s[1..])
  }

  /** Lower-casing is idempotent, so comparing lower-cased names is an equivalence. */
  lemma LowerIdempotent(s: string)
    ensures Lower(Lower(s)) == Lower(s)
  {
    assert forall i :: 0 <= i < |s| ==> LowerChar(LowerChar(s[i])) == LowerChar(s[i]);
  }

  /** `a.lower() == b.lower()`. */
  predicate SameName(a: string, b: string)
  {
    Lower(a) == Lower(b)
  }

  /** The characters `str.isspace()` accepts, which `str.split()` separates on:
      tab to carriage return, the four information separators, space, next line,
      no-break space, and the Unicode space separators and line/paragraph separators. */
  predicate IsSpace(c: char)
  {
    var n := c as int;
    || 0x09 <= n <= 0x0D
    || 0x1C <= n <= 0x20
    || n == 0x85 || n == 0xA0 || n == 0x1680
    || 0x2000 <= n <= 0x200A
    || n == 0x2028 || n == 0x2029 || n == 0x202F || n == 0x205F || n == 0x3000
  }

  predicate NoSpace(w: string)
  {
    forall j :: 0 <= j < |w| ==> !IsSpace(w[j])
  }

  /** Length of the leading run of non-space characters. */
  function WordLen(s: string): (n: nat)
    ensures n <= |s|
    ensures NoSpace(s[..n])
    ensures n < |s| ==> IsSpace(s[n])
  {
    if |s| == 0 || IsSpace(s[0]) then 0 else 1 + WordLen(s[1..])
  }

  /** `s.split()`: the maximal runs of non-space characters, in order. */
  function Words(s: string): (ws: seq<string>)
    ensures forall i :: 0 <= i < |ws| ==> |ws[i]| > 0 && NoSpace(ws[i])
    decreases |s|
  {
    if |s| == 0 then []
    else if IsSpace(s[0]) then Words(s[1..])
    else
      var n := WordLen(s);
      [s[..n]] + Words(s[n..])
  }

  /** A non-empty token without whitespace splits into exactly itself. */
  lemma {:induction false} WordsOfToken(w: string)
    requires |w| > 0 && NoSpace(w)
    ensures Words(w) == [w]
  {
    WordLenOfToken(w);
    assert !IsSpace(w[0]);
    assert w[..|w|] == w;
    assert w[|w|..] == [];
  }

  /** A string made only of whitespace has no tokens. */
  lemma {:induction false} WordsOfBlank(s: string)
    requires forall j :: 0 <= j < |s| ==> IsSpace(s[j])
    ensures Words(s) == []
    decreases |s|
  {
    if |s| > 0 {
      assert forall j :: 0 <= j < |s[1..]| ==> s[1..][j] == s[j + 1];
      WordsOfBlank(s[1..]);
    }
  }

  /** The leading run of `a` is not extended by what follows it, provided the run
      already ends inside `a` or the continuation starts with whitespace. */
  lemma {:induction false} WordLenPrefix(a: string, x: string)
    requires WordLen(a) < |a| || (x != [] && IsSpace(x[0]))
    ensures WordLen(a + x) == WordLen(a)
    decreases |a|
  {
    if |a| > 0 {
      assert (a + x)[0] == a[0];
      if !IsSpace(a[0]) {
        assert (a + x)[1..] == a[1..] + x;
        WordLenPrefix(a[1..], x);
      }
    }
  }

  /** Splitting at a whitespace character: the tokens of `a c b` are the tokens of
      `a` followed by the tokens of `b`. With `WordsOfToken` and `WordsOfBlank` this
      pins `Words` down to the maximal non-space runs. */
  lemma {:induction false} WordsSplitAtSpace(a: string, c: char, b: string)
    requires IsSpace(c)
    ensures Words(a + [c] + b) == Words(a) + Words(b)
    decreases |a|
  {
    var s := a + [c] + b;
    if |a| == 0 {
      assert s[0] == c && s[1..] == b;
    } else if IsSpace(a[0]) {
      assert s[0] == a[0] && s[1..] == a[1..] + [c] + b;
      WordsSplitAtSpace(a[1..], c, b);
    } else {
      var n := WordLen(a);
      WordsSplitAtSpace(a[n..], c, b);
      WordsSplitAtWord(a, c, b);
    }
  }

  /** The step of `WordsSplitAtSpace` when `a` starts with a token. */
  lemma WordsSplitAtWord(a: string, c: char, b: string)
    requires IsSpace(c) && |a| > 0 && !IsSpace(a[0])
    requires Words(a[WordLen(a)..] + [c] + b) == Words(a[WordLen(a)..]) + Words(b)
    ensures Words(a + [c] + b) == Words(a) + Words(b)
  {
    var s := a + [c] + b;
    var n := WordLen(a);
    WordLenPrefix(a, [c] + b);
    assert s == a + ([c] + b);
    assert s[0] == a[0];
    assert s[..n] == a[..n];
    assert s[n..] == a[n..] + [c] + b;
    var w := a[..n];
    assert Words(s) == [w] + Words(s[n..]);
    assert Words(a) == [w] + Words(a[n..]);
  }

  lemma {:induction false} WordLenOfToken(w: string)
    requires NoSpace(w)
    ensures WordLen(w) == |w|
    decreases |w|
  {
    if |w| > 0 {
      assert NoSpace(w[1..]) by {
        forall j | 0 <= j < |w[1..]| ensures !IsSpace(w[1..][j]) {
          assert w[1..][j] == w[j + 1];
        }
      }
      WordLenOfToken(w[1..]);
    }
  }

  predicate IsDigit(c: char)
  {
    '0' <= c <= '9'
  }

  predicate AllDigits(s: string)
  {
    forall i :: 0 <= i < |s| ==> IsDigit(s[i])
  }

  /** Decimal value of a digit string. */
  function DigitsValue(s: string): nat
    requires AllDigits(s)
    decreases |s|
  {
    if |s| == 0 then 0
    else DigitsValue(s[..|s| - 1]) * 10 + (s[|s| - 1] as int - '0' as int)
  }

  /** The literals `int(token)` accepts here: an optional sign and at least one digit. */
  predicate IsIntLiteral(s: string)
  {
    || (|s| > 0 && AllDigits(s))
    || (|s| > 1 && (s[0] == '-' || s[0] == '+') && AllDigits(s[1..]))
  }

  /** `int(s)`; `None` stands for the `ValueError` Python raises. */
  function ParseInt(s: string): (r: Option<int>)
    ensures r.Some? <==> IsIntLiteral(s)
    ensures r.Some? && |s| > 0 && s[0] == '-' ==> r.value <= 0
    ensures r.Some? && |s| > 0 && s[0] != '-' ==> r.value >= 0
  {
    if |s| > 0 && AllDigits(s) then Some(DigitsValue(s))
    else if |s| > 1 && (s[0] == '-' || s[0] == '+') && AllDigits(s[1..]) then
      var v: int := DigitsValue(s[1..]);
      Some(if s[0] == '-' then -v else v)
    else None
  }

  /** `[int(r) for r in tokens]`; `None` if any token is not a number. */
  function ParseAll(tokens: seq<string>): (r: Option<seq<int>>)
    ensures r.Some? <==> forall i :: 0 <= i < |tokens| ==> IsIntLiteral(tokens[i])
    ensures r.Some? ==> |r.value| == |tokens|
    ensures r.Some? ==> forall i :: 0 <= i < |tokens| ==> ParseInt(tokens[i]) == Some(r.value[i])
  {
    if |tokens| == 0 then Some([])
    else match (ParseInt(tokens[0]), ParseAll(tokens[1..]))
      case (Some(x), Some(xs)) => Some([x] + xs)
      case _ => None
  }
  /** A single token parses to the list of its one value. */
  lemma ParseAllSingle(w: string, v: int)
    requires ParseInt(w) == Some(v)
    ensures ParseAll([w]) == Some([v])
  {
    var ws := [w];
    assert ws[0] == w && ws[1..] == [];
    assert ParseAll(ws[1..]) == Some([]);
    assert [v] + [] == [v];
  }


  /** Decimal rendering of a natural number, as `str(n)` prints it. */
  function ShowNat(n: nat): (s: string)
    ensures |s| > 0 && AllDigits(s)
  {
    if n < 10 then [('0' as int + n) as char]
    else ShowNat(n / 10) + [('0' as int + n % 10) as char]
  }

  /** `int(str(n)) == n`: parsing is the inverse of printing. */
  lemma {:induction false} ParseShowNat(n: nat)
    ensures ParseInt(ShowNat(n)) == Some(n)
  {
    DigitsValueShowNat(n);
  }

  lemma {:induction false} DigitsValueShowNat(n: nat)
    ensures DigitsValue(ShowNat(n)) == n
  {
    var s := ShowNat(n);
    if n >= 10 {
      DigitsValueShowNat(n / 10);
      assert s[..|s| - 1] == ShowNat(n / 10);
    }
  }
}

=== FILE: tsar.dfy ===
/** True Self-Assignable Roles: the `role` command's lookup, eligibility checks and
    add/remove toggle, and the `tsar` editor's create, remove and nuke. The wizard's
    prompts and timeouts are replaced by the answers they collect. */
module TsarRoles {
  import opened Common
  import opened Text

  /** One configured role: the role it grants, the minimum tracked days, and the
      optional forbidden and required role lists (`None` when the answer was "none"). */
  datatype Tsar = Tsar(roleId: RoleId, minDays: int, blacklisted: Option<seq<RoleId>>, required: Option<seq<RoleId>>)

  /** The guild's `tsar` file: names to definitions, in insertion order. */
  type TsarList = seq<(string, Tsar)>

  /** The creation cap. */
  const MaxTsars := 20

  /** The index of the entry the lookup loop leaves assigned: the last entry whose
      name equals the query ignoring case. */
  function LastMatch(ts: TsarList, query: string): (r: Option<nat>)
    ensures r.Some? ==>
              && r.value < |ts|
              && SameName(ts[r.value].0, query)
              && forall j :: r.value < j < |ts| ==> !SameName(ts[j].0, query)
    ensures r.None? ==> forall j :: 0 <= j < |ts| ==> !SameName(ts[j].0, query)
    decreases |ts|
  {
    if |ts| == 0 then None
    else if SameName(ts[|ts| - 1].0, query) then Some(|ts| - 1)
    else LastMatch(ts[..|ts| - 1], query)
  }

  /** A forbidden or required list, `None` read as empty. */
  function Listed(o: Option<seq<RoleId>>): seq<RoleId>
  {
    if o.Some? then o.value else []
  }

  /** The listed roles the author holds, in list order (the "as you have" part). */
  function HeldOf(rs: seq<RoleId>, held: set<RoleId>): (r: seq<RoleId>)
    ensures forall x :: x in r <==> x in rs && x in held
  {
    if |rs| == 0 then []
    else (if rs[0] in held then [rs[0]] else []) + HeldOf(rs[1..], held)
  }

  /** The listed roles the author lacks, in list order (the "as you don't have" part). */
  function MissingOf(rs: seq<RoleId>, held: set<RoleId>): (r: seq<RoleId>)
    ensures forall x :: x in r <==> x in rs && x !in held
  {
    if |rs| == 0 then []
    else (if rs[0] !in held then [rs[0]] else []) + MissingOf(rs[1..], held)
  }

  /** The held roles of a concatenation are those of each part, in order: the
      refusal lists the roles as the list does. */
  lemma {:induction false} HeldOfConcat(a: seq<RoleId>, b: seq<RoleId>, held: set<RoleId>)
    ensures HeldOf(a + b, held) == HeldOf(a, held) + HeldOf(b, held)
    decreases |a|
  {
    if |a| > 0 {
      assert (a + b)[0] == a[0] && (a + b)[1..] == a[1..] + b;
      HeldOfConcat(a[1..], b, held);
      var h := if a[0] in held then [a[0]] else [];
      assert h + (HeldOf(a[1..], held) + HeldOf(b, held)) == (h + HeldOf(a[1..], held)) + HeldOf(b, held);
    } else {
      assert a + b == b;
    }
  }

  /** The missing roles of a concatenation are those of each part, in order. */
  lemma {:induction false} MissingOfConcat(a: seq<RoleId>, b: seq<RoleId>, held: set<RoleId>)
    ensures MissingOf(a + b, held) == MissingOf(a, held) + MissingOf(b, held)
    decreases |a|
  {
    if |a| > 0 {
      assert (a + b)[0] == a[0] && (a + b)[1..] == a[1..] + b;
      MissingOfConcat(a[1..], b, held);
      var h := if a[0] !in held then [a[0]] else [];
      assert h + (MissingOf(a[1..], held) + MissingOf(b, held)) == (h + MissingOf(a[1..], held)) + MissingOf(b, held);
    } else {
      assert a + b == b;
    }
  }

  /** A held role is named as often as it is listed, duplicates included; a role not
      held is never named. */
  lemma {:induction false} HeldOfCounts(rs: seq<RoleId>, held: set<RoleId>, x: RoleId)
    ensures multiset(HeldOf(rs, held))[x] == (if x in held then multiset(rs)[x] else 0)
    decreases |rs|
  {
    if |rs| > 0 {
      HeldOfCounts(rs[1..], held, x);
      assert rs == [rs[0]] + rs[1..];
      assert multiset(rs) == multiset([rs[0]]) + multiset(rs[1..]);
    }
  }

  /** A missing role is named as often as it is listed; a held role is never named. */
  lemma {:induction false} MissingOfCounts(rs: seq<RoleId>, held: set<RoleId>, x: RoleId)
    ensures multiset(MissingOf(rs, held))[x] == (if x !in held then multiset(rs)[x] else 0)
    decreases |rs|
  {
    if |rs| > 0 {
      MissingOfCounts(rs[1..], held, x);
      assert rs == [rs[0]] + rs[1..];
      assert multiset(rs) == multiset([rs[0]]) + multiset(rs[1..]);
    }
  }

  /** One listed role is kept exactly when held, or exactly when missing. */
  lemma HeldOrMissingOfOne(x: RoleId, held: set<RoleId>)
    ensures HeldOf([x], held) == (if x in held then [x] else [])
    ensures MissingOf([x], held) == (if x in held then [] else [x])
  {
    assert [x][1..] == [];
  }

  lemma HeldOfNonEmpty(rs: seq<RoleId>, held: set<RoleId>)
    ensures HeldOf(rs, held) != [] <==> exists x :: x in rs && x in held
  {
    var r := HeldOf(rs, held);
    if r != [] {
      assert r[0] in r;
    }
    if exists x :: x in rs && x in held {
      var x :| x in rs && x in held;
      assert x in r;
    }
  }

  lemma MissingOfNonEmpty(rs: seq<RoleId>, held: set<RoleId>)
    ensures MissingOf(rs, held) != [] <==> exists x :: x in rs && x !in held
  {
    var r := MissingOf(rs, held);
    if r != [] {
      assert r[0] in r;
    }
    if exists x :: x in rs && x !in held {
      var x :| x in rs && x !in held;
      assert x in r;
    }
  }

  /** The minimum-days check: only a non-zero minimum applies; an untracked author
      waits the full minimum, a tracked one the days still missing. */
  function DaysToWait(t: Tsar, author: UserId, track: map<UserId, int>): (r: Option<int>)
    ensures r.None? <==> t.minDays == 0 || (author in track && t.minDays <= track[author])
    ensures r.Some? && author !in track ==> r.value == t.minDays
    ensures r.Some? && author in track ==> r.value > 0 && r.value + track[author] == t.minDays
  {
    if t.minDays == 0 then None
    else if author !in track then Some(t.minDays)
    else if t.minDays > track[author] then Some(t.minDays - track[author])
    else None
  }

  /** The author may toggle the role: holds no forbidden role, holds every required
      role, and has been tracked for at least the minimum number of days. */
  predicate Eligible(t: Tsar, author: UserId, held: set<RoleId>, track: map<UserId, int>)
  {
    && (forall x :: x in Listed(t.blacklisted) ==> x !in held)
    && (forall x :: x in Listed(t.required) ==> x in held)
    && (t.minDays == 0 || (author in track && t.minDays <= track[author]))
  }

  datatype RoleReply =
    | NoneConfigured                   // "You cannot get a role when no roles are configured."
    | NoSuchRole(query: string)        // "There is no role named `q`."
    | HasForbidden(roles: seq<RoleId>) // "... as you have ..."
    | LacksRequired(roles: seq<RoleId>) // "... as you don't have ..."
    | MustWait(days: int)              // "... as you must wait `n` days."
    | RoleRemoved(role: RoleId)
    | RoleAdded(role: RoleId)

  predicate Toggled(r: RoleReply)
  {
    r.RoleRemoved? || r.RoleAdded?
  }

  /** The definition the lookup selects, if any. */
  function Found(ts: TsarList, query: string): (t: Option<Tsar>)
    ensures t.Some? <==> LastMatch(ts, query).Some?
    ensures t.Some? ==> t.value == ts[LastMatch(ts, query).value].1
  {
    var i := LastMatch(ts, query);
    if i.Some? then Some(ts[i.value].1) else None
  }

  /** `role <name>`: the reply and the author's roles afterwards. Checks in order:
      nothing configured, no such name, a forbidden role held, a required role
      missing, the minimum days; then the role is removed if held and added if not. */
  function Role(ts: TsarList, query: string, author: UserId, held: set<RoleId>, track: map<UserId, int>)
    : (r: (RoleReply, set<RoleId>))
    ensures r.0 == NoneConfigured <==> ts == []
    ensures r.0.NoSuchRole? <==> ts != [] && Found(ts, query).None?
    ensures !Toggled(r.0) ==> r.1 == held
    ensures Found(ts, query).Some? ==>
              var t := Found(ts, query).value;
              && (r.0.HasForbidden? <==> exists x :: x in Listed(t.blacklisted) && x in held)
              && (r.0.HasForbidden? ==> r.0.roles == HeldOf(Listed(t.blacklisted), held) && r.0.roles != [])
              && (r.0.LacksRequired? <==>
                    (forall x :: x in Listed(t.blacklisted) ==> x !in held)
                    && exists x :: x in Listed(t.required) && x !in held)
              && (r.0.LacksRequired? ==> r.0.roles == MissingOf(Listed(t.required), held) && r.0.roles != [])
              && (r.0.MustWait? <==>
                    (forall x :: x in Listed(t.blacklisted) ==> x !in held)
                    && (forall x :: x in Listed(t.required) ==> x in held)
                    && DaysToWait(t, author, track).Some?)
              && (r.0.MustWait? ==> r.0.days == DaysToWait(t, author, track).value)
              && (Toggled(r.0) <==> Eligible(t, author, held, track))
              && (r.0.RoleRemoved? ==> r.0.role == t.roleId && t.roleId in held && r.1 == held - {t.roleId})
              && (r.0.RoleAdded? ==> r.0.role == t.roleId && t.roleId !in held && r.1 == held + {t.roleId})
  {
    var f := Found(ts, query);
    if ts == [] then (NoneConfigured, held)
    else if f.None? then (NoSuchRole(query), held)
    else
      var t := f.value;
      var bad := HeldOf(Listed(t.blacklisted), held);
      var missing := MissingOf(Listed(t.required), held);
      if bad != [] then
        HeldOfNonEmpty(Listed(t.blacklisted), held);
        (HasForbidden(bad), held)
      else if missing != [] then
        MissingOfNonEmpty(Listed(t.required), held);
        (LacksRequired(missing), held)
      else if DaysToWait(t, author, track).Some? then (MustWait(DaysToWait(t, author, track).value), held)
      else if t.roleId in held then (RoleRemoved(t.roleId), held - {t.roleId})
      else (RoleAdded(t.roleId), held + {t.roleId})
  }

  /** Eligibility does not depend on holding the role itself when the role is in
      neither of its own lists. */
  lemma EligibleIgnoresOwnRole(t: Tsar, author: UserId, held: set<RoleId>, held': set<RoleId>, track: map<UserId, int>)
    requires t.roleId !in Listed(t.blacklisted) && t.roleId !in Listed(t.required)
    requires forall x :: x != t.roleId ==> (x in held <==> x in held')
    ensures Eligible(t, author, held, track) <==> Eligible(t, author, held', track)
  {
  }

  /** Toggling twice under unchanged eligibility gives the author's roles back: a role
      that is in neither of its own lists is added then removed, or removed then added. */
  lemma ToggleTwiceRestores(ts: TsarList, query: string, author: UserId, held: set<RoleId>, track: map<UserId, int>)
    requires Toggled(Role(ts, query, author, held, track).0)
    requires Found(ts, query).Some?
    requires var t := Found(ts, query).value;
             t.roleId !in Listed(t.blacklisted) && t.roleId !in Listed(t.required)
    ensures var once := Role(ts, query, author, held, track);
            var twice := Role(ts, query, author, once.1, track);
            && twice.1 == held
            && (once.0.RoleAdded? <==> twice.0.RoleRemoved?)
  {
    var t := Found(ts, query).value;
    var once := Role(ts, query, author, held, track);
    EligibleIgnoresOwnRole(t, author, held, once.1, track);
  }

  /** A role listed among its own forbidden roles is give-only: nobody can remove it
      through the command, since holding it is itself forbidden. */
  lemma GiveOnly(ts: TsarList, query: string, author: UserId, held: set<RoleId>, track: map<UserId, int>)
    requires Found(ts, query).Some?
    requires var t := Found(ts, query).value; t.roleId in Listed(t.blacklisted)
    ensures !Role(ts, query, author, held, track).0.RoleRemoved?
  {
  }

  /** A role listed among its own required roles is remove-only. */
  lemma RemoveOnly(ts: TsarList, query: string, author: UserId, held: set<RoleId>, track: map<UserId, int>)
    requires Found(ts, query).Some?
    requires var t := Found(ts, query).value; t.roleId in Listed(t.required)
    ensures !Role(ts, query, author, held, track).0.RoleAdded?
  {
  }

  /** The wizard's five answers, as typed. */
  datatype Answers = Answers(name: string, roleId: string, minDays: string, forbidden: string, required: string)

  /** Why a creation saved nothing. `NotANumber` stands for the `ValueError` that
      `int()` raises on a non-numeric answer. */
  datatype CreateError = AtCapacity | AlreadyExists | ForbiddenAndRequired | NotANumber

  /** A created list, with the two wizard notes ("give only", "remove only"). */
  datatype CreateOutcome = Created(tsars: TsarList, giveOnly: bool, removeOnly: bool) | NotCreated(error: CreateError)

  /** Some existing name equals `name` ignoring case. */
  predicate NameTaken(ts: TsarList, name: string)
  {
    exists i :: 0 <= i < |ts| && SameName(ts[i].0, name)
  }

  /** The role id answer appears verbatim as one of the whitespace-separated tokens. */
  predicate MentionsId(text: string, idText: string)
  {
    idText in Words(text)
  }

  /** A list answer: `None` for "none" in any case; otherwise every token parsed as a
      number. The outer `None` is a token that does not parse. */
  function RoleList(text: string): (r: Option<Option<seq<RoleId>>>)
    ensures Lower(text) == "none" ==> r == Some(None)
    ensures Lower(text) != "none" ==> (r.Some? <==> ParseAll(Words(text)).Some?)
    ensures Lower(text) != "none" && r.Some? ==> r.value == Some(ParseAll(Words(text)).value)
  {
    if Lower(text) != "none" then
      match ParseAll(Words(text))
      case Some(ids) => Some(Some(ids))
      case None => None
    else Some(None)
  }

  /** The id text is a token of both list answers: the check the code makes. */
  predicate TextsInBoth(a: Answers)
  {
    MentionsId(a.forbidden, a.roleId) && MentionsId(a.required, a.roleId)
  }

  /** All four numeric answers parse. */
  predicate AllParse(a: Answers)
  {
    ParseInt(a.roleId).Some? && ParseInt(a.minDays).Some? && RoleList(a.forbidden).Some? && RoleList(a.required).Some?
  }

  /** The answers parse and the parsed id is in both parsed lists. */
  predicate IdInBothLists(a: Answers)
  {
    && AllParse(a)
    && var id := ParseInt(a.roleId).value;
       id in Listed(RoleList(a.forbidden).value) && id in Listed(RoleList(a.required).value)
  }

  /** The "✨" branch of the editor. `byValue` says whether the forbidden-and-required
      check also compares the parsed ids; the code compares only the answer texts. */
  function CreateWith(ts: TsarList, a: Answers, byValue: bool): (r: CreateOutcome)
    ensures r == NotCreated(AtCapacity) <==> |ts| == MaxTsars
    ensures r == NotCreated(AlreadyExists) <==> |ts| != MaxTsars && NameTaken(ts, a.name)
    ensures r == NotCreated(ForbiddenAndRequired) <==>
              |ts| != MaxTsars && !NameTaken(ts, a.name) && (TextsInBoth(a) || (byValue && IdInBothLists(a)))
    ensures r == NotCreated(NotANumber) <==>
              |ts| != MaxTsars && !NameTaken(ts, a.name) && !TextsInBoth(a) && !AllParse(a)
    ensures r.Created? <==>
              |ts| != MaxTsars && !NameTaken(ts, a.name) && !TextsInBoth(a) && AllParse(a) && !(byValue && IdInBothLists(a))
    ensures r.Created? ==>
              && |ts| != MaxTsars && !NameTaken(ts, a.name)
              && |r.tsars| == |ts| + 1
              && r.tsars[..|ts|] == ts
              && r.tsars[|ts|].0 == a.name
              && ParseInt(a.roleId) == Some(r.tsars[|ts|].1.roleId)
              && ParseInt(a.minDays) == Some(r.tsars[|ts|].1.minDays)
              && RoleList(a.forbidden) == Some(r.tsars[|ts|].1.blacklisted)
              && RoleList(a.required) == Some(r.tsars[|ts|].1.required)
              && (r.giveOnly <==> MentionsId(a.forbidden, a.roleId))
              && (r.removeOnly <==> MentionsId(a.required, a.roleId))
    ensures r.Created? && byValue ==>
              var t := r.tsars[|ts|].1;
              !(t.roleId in Listed(t.blacklisted) && t.roleId in Listed(t.required))
  {
    if |ts| == MaxTsars then NotCreated(AtCapacity)
    else if NameTaken(ts, a.name) then NotCreated(AlreadyExists)
    else if TextsInBoth(a) then NotCreated(ForbiddenAndRequired)
    else match (ParseInt(a.roleId), ParseInt(a.minDays), RoleList(a.forbidden), RoleList(a.required))
      case (Some(id), Some(md), Some(bl), Some(rq)) =>
        if byValue && id in Listed(bl) && id in Listed(rq) then NotCreated(ForbiddenAndRequired)
        else
          // The name is new, so the assignment appends it at the end.
          Created(ts + [(a.name, Tsar(id, md, bl, rq))], MentionsId(a.forbidden, a.roleId), MentionsId(a.required, a.roleId))
      case _ => NotCreated(NotANumber)
  }

  /** Creation as written: the both-lists check compares answer texts only. */
  function CreateAsWritten(ts: TsarList, a: Answers): (r: CreateOutcome)
    ensures r.Created? ==> |r.tsars| == |ts| + 1 && r.tsars[..|ts|] == ts
  {
    CreateWith(ts, a, false)
  }

  /** Creation that also refuses a role whose parsed id is in both parsed lists. */
  function Create(ts: TsarList, a: Answers): (r: CreateOutcome)
    ensures r.Created? ==>
              && |r.tsars| == |ts| + 1 && r.tsars[..|ts|] == ts
              && var t := r.tsars[|ts|].1;
                 !(t.roleId in Listed(t.blacklisted) && t.roleId in Listed(t.required))
  {
    CreateWith(ts, a, true)
  }

  /** The cap holds: starting from at most 20 definitions, creation never exceeds 20. */
  lemma CreateKeepsCap(ts: TsarList, a: Answers, byValue: bool)
    requires |ts| <= MaxTsars
    ensures var r := CreateWith(ts, a, byValue); r.Created? ==> |r.tsars| <= MaxTsars
  {
  }

  /** After a creation, `role` with the new name in any case finds the new definition. */
  lemma CreateThenFind(ts: TsarList, a: Answers, byValue: bool, query: string)
    requires CreateWith(ts, a, byValue).Created?
    requires SameName(query, a.name)
    ensures var r := CreateWith(ts, a, byValue);
            Found(r.tsars, query) == Some(r.tsars[|ts|].1)
  {
  }

  /** A created name is distinct, ignoring case, from every name before it. */
  lemma CreateKeepsNamesDistinct(ts: TsarList, a: Answers, byValue: bool)
    requires CreateWith(ts, a, byValue).Created?
    ensures var r := CreateWith(ts, a, byValue);
            forall i :: 0 <= i < |ts| ==> !SameName(r.tsars[i].0, r.tsars[|ts|].0)
  {
  }

  /** Every token of `s.split()` is made of characters of `s`. */
  lemma {:induction false} WordsCharsFrom(s: string)
    ensures forall w, c :: w in Words(s) && c in w ==> c in s
    decreases |s|
  {
    if |s| > 0 {
      if IsSpace(s[0]) {
        WordsCharsFrom(s[1..]);
        assert forall c :: c in s[1..] ==> c in s;
      } else {
        var n := WordLen(s);
        WordsCharsFrom(s[n..]);
        assert forall c :: c in s[n..] ==> c in s;
        assert forall c :: c in s[..n] ==> c in s;
        assert Words(s) == [s[..n]] + Words(s[n..]);
      }
    }
  }

  /** No number is a token of an answer that reads "none" in some case. */
  lemma NoneAnswerHasNoNumber(text: string, idText: string)
    requires Lower(text) == "none" && IsIntLiteral(idText)
    ensures !MentionsId(text, idText)
  {
    WordsCharsFrom(text);
    forall j | 0 <= j < |text| ensures !IsDigit(text[j]) && text[j] != '+' && text[j] != '-' {
      assert LowerChar(text[j]) == "none"[j];
    }
    assert forall w :: w in Words(text) && |w| > 0 ==> !IsDigit(w[0]) && w[0] != '+' && w[0] != '-' by {
      forall w | w in Words(text) && |w| > 0 ensures !IsDigit(w[0]) && w[0] != '+' && w[0] != '-' {
        assert w[0] in w;
      }
    }
  }

  /** The "give only" note is accurate: when it was shown and the definition was
      saved, the role is in its own forbidden list, so `role` never removes it. */
  lemma {:induction false} GiveOnlyNoteHolds(ts: TsarList, a: Answers, byValue: bool)
    requires CreateWith(ts, a, byValue).Created? && CreateWith(ts, a, byValue).giveOnly
    ensures var r := CreateWith(ts, a, byValue);
            var t := r.tsars[|ts|].1;
            t.roleId in Listed(t.blacklisted)
  {
    var r := CreateWith(ts, a, byValue);
    var t := r.tsars[|ts|].1;
    if Lower(a.forbidden) == "none" {
      NoneAnswerHasNoNumber(a.forbidden, a.roleId);
    }
    var ws := Words(a.forbidden);
    var i :| 0 <= i < |ws| && ws[i] == a.roleId;
    assert ParseInt(ws[i]) == Some(ParseAll(ws).value[i]);
  }

  /** The "remove only" note is accurate in the same way. */
  lemma {:induction false} RemoveOnlyNoteHolds(ts: TsarList, a: Answers, byValue: bool)
    requires CreateWith(ts, a, byValue).Created? && CreateWith(ts, a, byValue).removeOnly
    ensures var r := CreateWith(ts, a, byValue);
            var t := r.tsars[|ts|].1;
            t.roleId in Listed(t.required)
  {
    var r := CreateWith(ts, a, byValue);
    var t := r.tsars[|ts|].1;
    if Lower(a.required) == "none" {
      NoneAnswerHasNoNumber(a.required, a.roleId);
    }
    var ws := Words(a.required);
    var i :| 0 <= i < |ws| && ws[i] == a.roleId;
    assert ParseInt(ws[i]) == Some(ParseAll(ws).value[i]);
  }

  /** A list answer that is a single number token other than "none" is that one id. */
  lemma RoleListOfToken(w: string, v: int)
    requires |w| > 0 && NoSpace(w) && Lower(w) != "none" && ParseInt(w) == Some(v)
    ensures RoleList(w) == Some(Some([v]))
  {
    WordsOfToken(w);
    ParseAllSingle(w, v);
  }

  /** The parses of the answers used below. */
  lemma SpelledIdsParse()
    ensures ParseInt("5") == Some(5) && ParseInt("0") == Some(0)
    ensures RoleList("5") == Some(Some([5])) && RoleList("05") == Some(Some([5]))
    ensures MentionsId("5", "5") && !MentionsId("05", "5")
  {
    DigitTokensParse();
    DigitTokensListed();
    DigitTokensMention();
  }

  lemma DigitTokensParse()
    ensures ParseInt("5") == Some(5) && ParseInt("0") == Some(0) && ParseInt("05") == Some(5)
  {
    assert "05"[..1] == "0" && "0"[..0] == "";
  }

  lemma DigitTokensBare()
    ensures NoSpace("5") && NoSpace("05")
  {
    assert !IsSpace('5') && !IsSpace('0');
    assert "05"[0] == '0' && "05"[1] == '5';
  }

  lemma DigitTokensListed()
    ensures RoleList("5") == Some(Some([5])) && RoleList("05") == Some(Some([5]))
  {
    DigitTokensParse();
    DigitTokensBare();
    assert Lower("5") == "5" && Lower("05") == "05";
    RoleListOfToken("5", 5);
    RoleListOfToken("05", 5);
  }

  lemma DigitTokensMention()
    ensures MentionsId("5", "5") && !MentionsId("05", "5")
  {
    DigitTokensBare();
    WordsOfToken("5");
    WordsOfToken("05");
  }

  /** As written, the same id spelled differently in the two lists ("5" and "05")
      passes the check, and the saved role can then be neither added nor removed. */
  lemma CreateAsWrittenAllowsBoth(ts: TsarList)
    requires |ts| < MaxTsars && !NameTaken(ts, "gate")
    ensures var r := CreateAsWritten(ts, Answers("gate", "5", "0", "5", "05"));
            && r.Created?
            && var t := r.tsars[|ts|].1;
               t.roleId in Listed(t.blacklisted) && t.roleId in Listed(t.required)
  {
    SpelledIdsParse();
    var t := Tsar(5, 0, Some([5]), Some([5]));
    assert CreateWith(ts, Answers("gate", "5", "0", "5", "05"), false) == Created(ts + [("gate", t)], true, false);
  }

  /** A role in both of its own lists can never be toggled. */
  lemma BothListsBlockToggle(ts: TsarList, query: string, author: UserId, held: set<RoleId>, track: map<UserId, int>)
    requires Found(ts, query).Some?
    requires var t := Found(ts, query).value;
             t.roleId in Listed(t.blacklisted) && t.roleId in Listed(t.required)
    ensures !Toggled(Role(ts, query, author, held, track).0)
  {
  }

  /** The entries whose key is not `name`, in order. */
  function WithoutKey(ts: TsarList, name: string): (r: TsarList)
    ensures |r| <= |ts|
    ensures forall i :: 0 <= i < |r| ==> r[i] in ts && r[i].0 != name
    ensures forall p :: p in ts && p.0 != name ==> p in r
  {
    if |ts| == 0 then []
    else (if ts[0].0 == name then [] else [ts[0]]) + WithoutKey(ts[1..], name)
  }

  lemma {:induction false} WithoutAbsentKey(ts: TsarList, name: string)
    requires forall i :: 0 <= i < |ts| ==> ts[i].0 != name
    ensures WithoutKey(ts, name) == ts
    decreases |ts|
  {
    if |ts| > 0 {
      WithoutAbsentKey(ts[1..], name);
      assert ts == [ts[0]] + ts[1..];
    }
  }

  /** Filtering distributes over concatenation: each part keeps its own order. */
  lemma {:induction false} WithoutKeyConcat(a: TsarList, b: TsarList, name: string)
    ensures WithoutKey(a + b, name) == WithoutKey(a, name) + WithoutKey(b, name)
    decreases |a|
  {
    if |a| == 0 {
      assert a + b == b;
    } else {
      assert (a + b)[0] == a[0];
      assert (a + b)[1..] == a[1..] + b;
      WithoutKeyConcat(a[1..], b, name);
    }
  }

  datatype RemoveOutcome = Removed(tsars: TsarList) | NoSuchKey

  /** The "❌" branch: `del tsars[name]` with the name exactly as typed; a missing key
      raises and nothing is saved. */
  function Remove(ts: TsarList, name: string): (r: RemoveOutcome)
    ensures r.NoSuchKey? <==> forall i :: 0 <= i < |ts| ==> ts[i].0 != name
    ensures r.Removed? ==>
              && r.tsars == WithoutKey(ts, name)
              && |r.tsars| < |ts|
              && (forall i :: 0 <= i < |r.tsars| ==> r.tsars[i].0 != name)
              && (forall p :: p in ts && p.0 != name ==> p in r.tsars)
              && (forall p :: p in r.tsars ==> p in ts)
  {
    if forall i :: 0 <= i < |ts| ==> ts[i].0 != name then NoSuchKey
    else
      var r := WithoutKey(ts, name);
      assert |r| < |ts| by { RemovingShrinks(ts, name); }
      Removed(r)
  }

  lemma {:induction false} RemovingShrinks(ts: TsarList, name: string)
    requires exists i :: 0 <= i < |ts| && ts[i].0 == name
    ensures |WithoutKey(ts, name)| < |ts|
    decreases |ts|
  {
    if ts[0].0 != name {
      var i :| 0 <= i < |ts| && ts[i].0 == name;
      assert ts[1..][i - 1].0 == name;
      RemovingShrinks(ts[1..], name);
    }
  }

  /** `del` on a dict: when `name` keys exactly one entry, that entry goes and the
      entries before and after it stay, in their order. */
  lemma RemoveKeepsOrder(pre: TsarList, p: (string, Tsar), post: TsarList)
    requires forall i :: 0 <= i < |pre| ==> pre[i].0 != p.0
    requires forall i :: 0 <= i < |post| ==> post[i].0 != p.0
    ensures Remove(pre + [p] + post, p.0) == Removed(pre + post)
  {
    var ts := pre + [p] + post;
    assert ts[|pre|] == p;
    var head := pre + [p];
    WithoutKeyConcat(head, post, p.0);
    WithoutKeyConcat(pre, [p], p.0);
    WithoutAbsentKey(pre, p.0);
    WithoutAbsentKey(post, p.0);
    assert WithoutKey([p], p.0) == [];
    assert WithoutKey(head, p.0) == pre by {
      assert pre + [] == pre;
    }
  }

  /** Removing the key of an entry appended after entries with other keys restores them. */
  lemma RemoveAppended(ts: TsarList, p: (string, Tsar))
    requires forall i :: 0 <= i < |ts| ==> ts[i].0 != p.0
    ensures Remove(ts + [p], p.0) == Removed(ts)
  {
    RemoveKeepsOrder(ts, p, []);
    assert ts + [p] + [] == ts + [p];
    assert ts + [] == ts;
  }

  /** Removing a definition just created under its exact name restores the list. */
  lemma {:induction false} CreateThenRemove(ts: TsarList, a: Answers, byValue: bool)
    requires CreateWith(ts, a, byValue).Created?
    ensures Remove(CreateWith(ts, a, byValue).tsars, a.name) == Removed(ts)
  {
    var r := CreateWith(ts, a, byValue);
    var p := r.tsars[|ts|];
    assert r.tsars == ts + [p];
    forall i | 0 <= i < |ts| ensures ts[i].0 != p.0 {
      assert !SameName(ts[i].0, a.name);
    }
    RemoveAppended(ts, p);
  }

  /** The "💣" branch: the list is emptied only on the answer "yes" in any case. */
  function Nuke(ts: TsarList, confirm: string): (r: TsarList)
    ensures Lower(confirm) == "yes" ==> r == []
    ensures Lower(confirm) != "yes" ==> r == ts
  {
    if Lower(confirm) == "yes" then [] else ts
  }

  /** After a confirmed nuke, `role` answers that nothing is configured for any
      name; an unconfirmed one leaves every answer of `role` as it was. */
  lemma NukeThenRole(ts: TsarList, confirm: string, query: string, author: UserId,
                     held: set<RoleId>, track: map<UserId, int>)
    ensures var r := Role(Nuke(ts, confirm), query, author, held, track);
            && (Lower(confirm) == "yes" ==> r == (NoneConfigured, held))
            && (Lower(confirm) != "yes" ==> r == Role(ts, query, author, held, track))
  {
  }

  /** The editor's four reactions with the answers their branch collects. */
  datatype Choice = Cancel | Make(answers: Answers) | Drop(name: string) | Wipe(confirm: string)

  /** `tsar`: the list saved afterwards, or `None` when the branch saves nothing.
      `byValue` selects the creation check: `false` is the code as written (answer
      texts only), `true` the corrected check on parsed ids. */
  function Configure(ts: TsarList, c: Choice, byValue: bool): (r: Option<TsarList>)
    ensures c.Cancel? ==> r.None?
    ensures r.Some? && |ts| <= MaxTsars ==> |r.value| <= MaxTsars
    ensures c.Make? ==> (r.Some? <==> CreateWith(ts, c.answers, byValue).Created?)
    ensures c.Make? && r.Some? ==> |r.value| == |ts| + 1 && r.value[..|ts|] == ts && r.value[|ts|].0 == c.answers.name
    ensures c.Make? && r.Some? ==> r.value == CreateWith(ts, c.answers, byValue).tsars
    ensures c.Drop? ==> (r.None? <==> forall i :: 0 <= i < |ts| ==> ts[i].0 != c.name)
    ensures c.Drop? && r.Some? ==> r.value == WithoutKey(ts, c.name)
    ensures c.Wipe? ==> (r.Some? <==> Lower(c.confirm) == "yes") && (r.Some? ==> r.value == [])
  {
    match c
    case Cancel => None
    case Make(a) =>
      (match CreateWith(ts, a, byValue)
       case Created(ts', _, _) => Some(ts')
       case NotCreated(_) => None)
    case Drop(name) =>
      (match Remove(ts, name)
       case Removed(ts') => Some(ts')
       case NoSuchKey => None)
    case Wipe(confirm) => if Lower(confirm) == "yes" then Some(Nuke(ts, confirm)) else None
  }

  /** The editor as written saves the "5"/"5"/"05" definition that the corrected
      check refuses; every other branch is the same in both. */
  lemma ConfigureVariantsDiffer(ts: TsarList)
    requires |ts| < MaxTsars && !NameTaken(ts, "gate")
    ensures var c := Make(Answers("gate", "5", "0", "5", "05"));
            Configure(ts, c, false).Some? && Configure(ts, c, true).None?
  {
    SpelledIdsParse();
    CreateAsWrittenAllowsBoth(ts);
    var r := CreateWith(ts, Answers("gate", "5", "0", "5", "05"), true);
    assert r == NotCreated(ForbiddenAndRequired);
  }
}

=== FILE: userlog.dfy ===
/** The per-guild user log: for every user, one ordered list of events per kind
    plus a watch flag. Covers the write helper `add_userlog` and the two ledger
    edits `clear_event_from_id` and `delete_event_from_id`. */
module UserLog {
  import opened Common

  /** The event kinds of the user log, keyed in the guild file by their plural name. */
  datatype Kind = Bans | Kicks | Warns | Notes | Tosses

  /** The key a kind is stored under (`"bans"`, `"warns"`, ...). */
  function KindKey(k: Kind): string
  {
    match k
    case Bans => "bans"
    case Kicks => "kicks"
    case Warns => "warns"
    case Notes => "notes"
    case Tosses => "tosses"
  }

  /** Inverse of `KindKey`; any other name is not a kind. */
  function KindNamed(name: string): (r: Option<Kind>)
    ensures r.Some? ==> KindKey(r.value) == name
    ensures r.None? ==> forall k: Kind :: KindKey(k) != name
  {
    if name == "bans" then Some(Bans)
    else if name == "kicks" then Some(Kicks)
    else if name == "warns" then Some(Warns)
    else if name == "notes" then Some(Notes)
    else if name == "tosses" then Some(Tosses)
    else None
  }

  lemma KindNamedKey(k: Kind)
    ensures KindNamed(KindKey(k)) == Some(k)
  {
  }

  /** One logged event. The issuer's name is a snapshot taken when the event was written. */
  datatype Event = Event(timestamp: string, issuerId: UserId, issuerName: string, reason: string)

  /** One user's entry in the guild's `userlog` file. */
  datatype UserRecord = UserRecord(
    bans: seq<Event>, kicks: seq<Event>, warns: seq<Event>,
    notes: seq<Event>, tosses: seq<Event>, watch: bool)
  {
    function Get(k: Kind): seq<Event>
    {
      match k
      case Bans => bans
      case Kicks => kicks
      case Warns => warns
      case Notes => notes
      case Tosses => tosses
    }

    /** This record with kind `k`'s list replaced by `s`. */
    function With(k: Kind, s: seq<Event>): (r: UserRecord)
      ensures r.Get(k) == s
      ensures forall k' :: k' != k ==> r.Get(k') == Get(k')
      ensures r.watch == watch
    {
      match k
      case Bans => this.(bans := s)
      case Kicks => this.(kicks := s)
      case Warns => this.(warns := s)
      case Notes => this.(notes := s)
      case Tosses => this.(tosses := s)
    }
  }

  /** The record a user gets on their first logged event. */
  const FreshRecord := UserRecord([], [], [], [], [], false)

  /** One guild's `userlog` file and the set of all guild files. */
  type Ledger = map<UserId, UserRecord>
  type Store = map<GuildId, Ledger>

  /** A guild without a file reads as an empty ledger. */
  function LedgerOf(store: Store, g: GuildId): Ledger
  {
    if g in store then store[g] else map[]
  }

  /** The events of kind `k` logged against `u` in guild `g`; empty when the user is absent. */
  function Events(store: Store, g: GuildId, u: UserId, k: Kind): seq<Event>
  {
    var l := LedgerOf(store, g);
    if u in l then l[u].Get(k) else []
  }

  /** Replace one user's record in one guild's file. */
  function PutRecord(store: Store, g: GuildId, u: UserId, rec: UserRecord): Store
  {
    store[g := LedgerOf(store, g)[u := rec]]
  }

  /** `add_userlog(guild, user, issuer, reason, kind)`: append an event to
      `log[guild][user][kind]`, creating the record on first use, and return the
      new length of that list (used by `warn` as the warn number). */
  function AddUserlog(store: Store, g: GuildId, u: UserId, k: Kind, e: Event): (r: (Store, nat))
    ensures Events(r.0, g, u, k) == Events(store, g, u, k) + [e]
    ensures r.1 == |Events(r.0, g, u, k)| == |Events(store, g, u, k)| + 1
    ensures forall g', u', k' :: (g', u', k') != (g, u, k) ==> Events(r.0, g', u', k') == Events(store, g', u', k')
    ensures u in LedgerOf(r.0, g)
    ensures forall u' :: u' in LedgerOf(r.0, g) <==> u' in LedgerOf(store, g) || u' == u
    ensures LedgerOf(r.0, g)[u].watch == (u in LedgerOf(store, g) && LedgerOf(store, g)[u].watch)
    ensures forall u' :: u' != u && u' in LedgerOf(store, g) ==> LedgerOf(r.0, g)[u'] == LedgerOf(store, g)[u']
    ensures forall g' :: g' != g ==> LedgerOf(r.0, g') == LedgerOf(store, g')
  {
    var rec := if u in LedgerOf(store, g) then LedgerOf(store, g)[u] else FreshRecord;
    var s := rec.Get(k) + [e];
    (PutRecord(store, g, u, rec.With(k, s)), |s|)
  }

  /** What `clear_event_from_id` answers: `"<@u> has no K!"` or `"<@u> no longer has any K!"`. */
  datatype ClearReply = HasNo(user: UserId, kind: Kind) | NoLongerHas(user: UserId, kind: Kind)

  /** `clear_event_from_id(guild, user, kind)`: empty one kind's list of one user.
      A user who is not in the file, or whose list is already empty, gets the
      "has no" reply and the file is not written. */
  function ClearEvent(store: Store, g: GuildId, u: UserId, k: Kind): (r: (Store, ClearReply))
    ensures r.1.HasNo? <==> Events(store, g, u, k) == []
    ensures r.1.HasNo? ==> r.0 == store && r.1 == HasNo(u, k)
    ensures r.1.NoLongerHas? ==> r.1 == NoLongerHas(u, k) && Events(r.0, g, u, k) == []
    ensures forall g', u', k' :: (g', u', k') != (g, u, k) ==> Events(r.0, g', u', k') == Events(store, g', u', k')
    ensures forall u' :: u' in LedgerOf(r.0, g) <==> u' in LedgerOf(store, g)
    ensures u in LedgerOf(store, g) ==> LedgerOf(r.0, g)[u].watch == LedgerOf(store, g)[u].watch
  {
    var l := LedgerOf(store, g);
    if u !in l then (store, HasNo(u, k))
    else if |l[u].Get(k)| == 0 then (store, HasNo(u, k))
    else (PutRecord(store, g, u, l[u].With(k, [])), NoLongerHas(u, k))
  }

  /** Clearing is idempotent: a second clear finds nothing and changes nothing. */
  lemma ClearTwice(store: Store, g: GuildId, u: UserId, k: Kind)
    ensures var once := ClearEvent(store, g, u, k).0;
            ClearEvent(once, g, u, k) == (once, HasNo(u, k))
  {
  }

  /** The failures of `delete_event_from_id`, in the order they are checked. */
  datatype DeleteError =
    | NoEvents(user: UserId, kind: Kind)   // "<@u> has no K!": user absent or list empty
    | IndexAboveCount(count: nat)          // "Index is higher than count (n)!"
    | IndexBelowOne                        // "Index is below 1!"

  /** Either the file after the deletion plus the removed event and its 1-based index,
      or an error reply with the file left untouched. */
  datatype DeleteOutcome = Deleted(store: Store, index: nat, removed: Event) | Refused(error: DeleteError)

  /** `delete_event_from_id(guild, user, idx, kind)`: remove the `idx`-th (1-based)
      event of one kind. The checks run in the order: user absent, list empty,
      `idx > count`, `idx < 1`. */
  function DeleteEvent(store: Store, g: GuildId, u: UserId, idx: int, k: Kind): (r: DeleteOutcome)
    ensures var s := Events(store, g, u, k);
            && (r == Refused(NoEvents(u, k)) <==> s == [])
            && (r == Refused(IndexAboveCount(|s|)) <==> s != [] && idx > |s|)
            && (r == Refused(IndexBelowOne) <==> s != [] && idx < 1)
            && (r.Deleted? <==> 1 <= idx <= |s|)
    ensures r.Deleted? ==>
            var s := Events(store, g, u, k);
            var s' := Events(r.store, g, u, k);
            && r.index == idx
            && r.removed == s[idx - 1]
            && |s'| == |s| - 1
            && (forall j :: 0 <= j < idx - 1 ==> s'[j] == s[j])
            && (forall j :: idx - 1 <= j < |s'| ==> s'[j] == s[j + 1])
    ensures r.Deleted? ==>
            forall g', u', k' :: (g', u', k') != (g, u, k) ==> Events(r.store, g', u', k') == Events(store, g', u', k')
    ensures r.Deleted? ==>
            && (forall u' :: u' in LedgerOf(r.store, g) <==> u' in LedgerOf(store, g))
            && u in LedgerOf(store, g)
            && LedgerOf(r.store, g)[u].watch == LedgerOf(store, g)[u].watch
    ensures r.Deleted? ==>
            && (forall u' :: u' != u && u' in LedgerOf(store, g) ==> LedgerOf(r.store, g)[u'] == LedgerOf(store, g)[u'])
            && (forall g' :: g' != g ==> LedgerOf(r.store, g') == LedgerOf(store, g'))
  {
    var l := LedgerOf(store, g);
    if u !in l then Refused(NoEvents(u, k))
    else
      var s := l[u].Get(k);
      if |s| == 0 then Refused(NoEvents(u, k))
      else if idx > |s| then Refused(IndexAboveCount(|s|))
      else if idx < 1 then Refused(IndexBelowOne)
      else
        var removed := s[idx - 1];
        Deleted(PutRecord(store, g, u, l[u].With(k, s[..idx - 1] + s[idx..])), idx, removed)
  }

  /** The summary a successful deletion posts: index, timestamp, issuer name and reason
      of the event that was removed, captured before removal. */
  datatype RemovedSummary = RemovedSummary(index: nat, timestamp: string, issuerName: string, reason: string)

  function Summary(r: DeleteOutcome): (sm: Option<RemovedSummary>)
    ensures sm.Some? <==> r.Deleted?
  {
    match r
    case Deleted(_, i, e) => Some(RemovedSummary(i, e.timestamp, e.issuerName, e.reason))
    case Refused(_) => None
  }

  /** The posted summary describes the event at the 1-based index that was deleted,
      with its fields as they were before the deletion; a refused deletion posts none. */
  lemma SummaryOfDeletion(store: Store, g: GuildId, u: UserId, idx: int, k: Kind)
    ensures var s := Events(store, g, u, k);
            var sm := Summary(DeleteEvent(store, g, u, idx, k));
            && (sm.Some? <==> 1 <= idx <= |s|)
            && (sm.Some? ==> sm.value == RemovedSummary(idx, s[idx - 1].timestamp, s[idx - 1].issuerName, s[idx - 1].reason))
  {
  }

  /** Deleting and then putting the removed event back at its index restores the
      user's list exactly: the deletion removed that one event and nothing else. */
  lemma {:induction false} DeleteThenReinsert(store: Store, g: GuildId, u: UserId, idx: int, k: Kind)
    requires DeleteEvent(store, g, u, idx, k).Deleted?
    ensures var r := DeleteEvent(store, g, u, idx, k);
            var s' := Events(r.store, g, u, k);
            s'[..idx - 1] + [r.removed] + s'[idx - 1..] == Events(store, g, u, k)
  {
    var r := DeleteEvent(store, g, u, idx, k);
    var s := Events(store, g, u, k);
    var s' := Events(r.store, g, u, k);
    var t := s'[..idx - 1] + [r.removed] + s'[idx - 1..];
    assert |t| == |s|;
    forall j | 0 <= j < |s| ensures t[j] == s[j] {
      if j < idx - 1 {
        assert t[j] == s'[j];
      } else if j == idx - 1 {
        assert t[j] == r.removed;
      } else {
        assert t[j] == s'[j - 1];
      }
    }
  }

  /** Deletion is a multiset subtraction of exactly the removed event. */
  lemma {:induction false} DeleteRemovesOneOccurrence(store: Store, g: GuildId, u: UserId, idx: int, k: Kind)
    requires DeleteEvent(store, g, u, idx, k).Deleted?
    ensures var r := DeleteEvent(store, g, u, idx, k);
            multiset(Events(r.store, g, u, k)) + multiset{r.removed} == multiset(Events(store, g, u, k))
  {
    var r := DeleteEvent(store, g, u, idx, k);
    var s := Events(store, g, u, k);
    var s' := Events(r.store, g, u, k);
    DeleteThenReinsert(store, g, u, idx, k);
    assert s == s'[..idx - 1] + [r.removed] + s'[idx - 1..];
    assert s' == s'[..idx - 1] + s'[idx - 1..];
  }

  /** Logging an event and then deleting the last event of that kind leaves every
      list of every user as it was: the append wrote exactly one event at the end. */
  lemma AppendThenDeleteLast(store: Store, g: GuildId, u: UserId, k: Kind, e: Event)
    ensures var (st, n) := AddUserlog(store, g, u, k, e);
            var r := DeleteEvent(st, g, u, n, k);
            && r.Deleted? && r.removed == e
            && forall g', u', k' :: Events(r.store, g', u', k') == Events(store, g', u', k')
  {
    var (st, n) := AddUserlog(store, g, u, k, e);
    var r := DeleteEvent(st, g, u, n, k);
    var s := Events(store, g, u, k);
    assert Events(st, g, u, k) == s + [e];
    assert r.Deleted?;
    var s' := Events(r.store, g, u, k);
    assert |s'| == |s| && forall j :: 0 <= j < |s'| ==> s'[j] == s[j];
    assert s' == s;
    forall g', u', k' ensures Events(r.store, g', u', k') == Events(store, g', u', k') {
      if (g', u', k') != (g, u, k) {
        assert Events(st, g', u', k') == Events(store, g', u', k');
      }
    }
  }
}

=== FILE: userlog_view.dfy ===
/** The selection and numbering logic of the user-log view (`get_userlog_embed_for_id`):
    which kinds are shown, how entries are numbered, and the colour and summary line. */
module UserLogView {
  import opened Common
  import opened UserLog

  /** The `event` argument: a single kind name (the default is `""`) or a list of names
      (what `fullinfo` passes). */
  datatype EventArg = Named(name: string) | Listed(names: seq<string>)

  /** The kind names shown by default: warns, kicks, bans, with tosses first in the staff view. */
  function DefaultNames(own: bool): seq<string>
  {
    if own then ["warns", "kicks", "bans"] else ["tosses", "warns", "kicks", "bans"]
  }

  /** The kind names the view asks for. A non-empty single name narrows the view to that
      name; an empty name or any list keeps the default. */
  function WantedNames(own: bool, arg: EventArg): (ns: seq<string>)
    ensures arg.Named? && arg.name != "" ==> ns == [arg.name]
    ensures arg.Listed? || arg.name == "" ==> ns == DefaultNames(own)
  {
    match arg
    case Named(n) => if n != "" then [n] else DefaultNames(own)
    case Listed(_) => DefaultNames(own)
  }

  /** One numbered line of a field. The issuer is hidden in the user's own view. */
  datatype Entry = Entry(number: nat, issuer: Option<UserId>, timestamp: string, reason: string)

  /** One field: a kind and its entries. */
  datatype Field = Field(kind: Kind, entries: seq<Entry>)

  datatype Colour = Green | Orange | DarkRed

  /** The staff view's line: watched or not, and the note count with its plural flag. */
  datatype WatchLine = WatchLine(watched: bool, noteCount: nat, plural: bool)

  datatype View =
    | NotInSystem
    | Shown(fields: seq<Field>, colour: Colour, watchLine: Option<WatchLine>, noLogs: bool)

  /** The entries of one kind's list, numbered from `from + 1`. */
  function Numbered(events: seq<Event>, own: bool, from: nat): (es: seq<Entry>)
    ensures |es| == |events|
    ensures forall i :: 0 <= i < |es| ==>
              && es[i].number == from + i + 1
              && es[i].timestamp == events[i].timestamp
              && es[i].reason == events[i].reason
              && (es[i].issuer.Some? <==> !own)
              && (!own ==> es[i].issuer.value == events[i].issuerId)
    decreases |events|
  {
    if |events| == 0 then []
    else
      var e := events[0];
      [Entry(from + 1, if own then None else Some(e.issuerId), e.timestamp, e.reason)]
        + Numbered(events[1..], own, from + 1)
  }

  /** The kind a wanted name denotes, if the record lists it non-empty. */
  predicate ShowsName(rec: UserRecord, name: string)
  {
    KindNamed(name).Some? && rec.Get(KindNamed(name).value) != []
  }

  /** One field per wanted name whose list is non-empty, in the order asked for. */
  function Fields(names: seq<string>, rec: UserRecord, own: bool): (fs: seq<Field>)
    ensures |fs| <= |names|
    ensures forall i :: 0 <= i < |fs| ==>
              && KindKey(fs[i].kind) in names
              && fs[i].entries != []
              && fs[i].entries == Numbered(rec.Get(fs[i].kind), own, 0)
    decreases |names|
  {
    if |names| == 0 then []
    else
      var rest := Fields(names[1..], rec, own);
      if ShowsName(rec, names[0]) then
        var k := KindNamed(names[0]).value;
        [Field(k, Numbered(rec.Get(k), own, 0))] + rest
      else rest
  }

  /** Some field of `fs` is for kind `k`. */
  predicate HasField(fs: seq<Field>, k: Kind)
  {
    exists i :: 0 <= i < |fs| && fs[i].kind == k
  }

  /** The fields of a single wanted name: one when the record lists that kind
      non-empty, none otherwise. */
  lemma FieldsOfOne(name: string, rec: UserRecord, own: bool)
    ensures Fields([name], rec, own) ==
              if ShowsName(rec, name)
              then [Field(KindNamed(name).value, Numbered(rec.Get(KindNamed(name).value), own, 0))]
              else []
  {
    assert [name][1..] == [];
  }

  /** The fields of concatenated name lists are the fields of each, in order: the view
      shows its fields in the order the names were asked for. */
  lemma {:induction false} FieldsConcat(a: seq<string>, b: seq<string>, rec: UserRecord, own: bool)
    ensures Fields(a + b, rec, own) == Fields(a, rec, own) + Fields(b, rec, own)
    decreases |a|
  {
    if |a| == 0 {
      assert a + b == b;
    } else {
      assert (a + b)[0] == a[0] && (a + b)[1..] == a[1..] + b;
      FieldsConcat(a[1..], b, rec, own);
      var h := if ShowsName(rec, a[0])
               then [Field(KindNamed(a[0]).value, Numbered(rec.Get(KindNamed(a[0]).value), own, 0))]
               else [];
      assert h + (Fields(a[1..], rec, own) + Fields(b, rec, own)) == (h + Fields(a[1..], rec, own)) + Fields(b, rec, own);
    }
  }

  /** The staff default view shows the tosses field, if any, before the fields of the
      user's own default view. */
  lemma StaffViewTossesFirst(rec: UserRecord)
    ensures Fields(DefaultNames(false), rec, false) ==
              Fields(["tosses"], rec, false) + Fields(DefaultNames(true), rec, false)
  {
    assert DefaultNames(false) == ["tosses"] + DefaultNames(true);
    FieldsConcat(["tosses"], DefaultNames(true), rec, false);
  }

  /** No name is wanted twice. */
  predicate NoRepeats(names: seq<string>)
  {
    forall i, j :: 0 <= i < j < |names| ==> names[i] != names[j]
  }

  /** No two fields are for the same kind. */
  predicate KindsDistinct(fs: seq<Field>)
  {
    forall i, j :: 0 <= i < j < |fs| ==> fs[i].kind != fs[j].kind
  }

  /** Distinct wanted names give fields of distinct kinds. */
  lemma {:induction false} FieldsKindsDistinct(names: seq<string>, rec: UserRecord, own: bool)
    requires NoRepeats(names)
    ensures KindsDistinct(Fields(names, rec, own))
    decreases |names|
  {
    if |names| > 0 {
      var tail := names[1..];
      forall i, j | 0 <= i < j < |tail|
        ensures tail[i] != tail[j]
      {
        assert tail[i] == names[i + 1] && tail[j] == names[j + 1];
      }
      assert NoRepeats(tail);
      FieldsKindsDistinct(tail, rec, own);
      var rest := Fields(tail, rec, own);
      if ShowsName(rec, names[0]) {
        var k := KindNamed(names[0]).value;
        var f := Field(k, Numbered(rec.Get(k), own, 0));
        assert Fields(names, rec, own) == [f] + rest;
        HeadKindFresh(names, rec, own);
        assert !HasField(rest, k);
        ConsKindsDistinct(f, rest);
      } else {
        assert Fields(names, rec, own) == rest;
      }
    }
  }

  /** The kind of a head name that is shown has no field among the later names. */
  lemma HeadKindFresh(names: seq<string>, rec: UserRecord, own: bool)
    requires |names| > 0 && NoRepeats(names) && ShowsName(rec, names[0])
    ensures !HasField(Fields(names[1..], rec, own), KindNamed(names[0]).value)
  {
    var tail := names[1..];
    var rest := Fields(tail, rec, own);
    forall j | 0 <= j < |rest|
      ensures rest[j].kind != KindNamed(names[0]).value
    {
      var n := KindKey(rest[j].kind);
      assert n in tail;
      var m :| 0 <= m < |tail| && tail[m] == n;
      assert names[m + 1] == n;
      assert n != names[0];
    }
  }

  /** Prepending a field of a fresh kind to fields of distinct kinds keeps them distinct. */
  lemma ConsKindsDistinct(f: Field, rest: seq<Field>)
    requires KindsDistinct(rest) && !HasField(rest, f.kind)
    ensures KindsDistinct([f] + rest)
  {
    var fs := [f] + rest;
    forall i, j | 0 <= i < j < |fs|
      ensures fs[i].kind != fs[j].kind
    {
      assert fs[j] == rest[j - 1];
      if i > 0 {
        assert fs[i] == rest[i - 1];
      }
    }
  }

  lemma HasFieldConcat(a: seq<Field>, b: seq<Field>, k: Kind)
    ensures HasField(a + b, k) <==> HasField(a, k) || HasField(b, k)
  {
    var c := a + b;
    if HasField(b, k) {
      var i :| 0 <= i < |b| && b[i].kind == k;
      assert c[|a| + i] == b[i];
    }
    if HasField(a, k) {
      var i :| 0 <= i < |a| && a[i].kind == k;
      assert c[i] == a[i];
    }
    if HasField(c, k) {
      var i :| 0 <= i < |c| && c[i].kind == k;
      if i < |a| {
        assert c[i] == a[i];
      } else {
        assert c[i] == b[i - |a|];
      }
    }
  }

  /** A single wanted name gives kind `k` a field exactly when it names `k` and `k`'s
      list is non-empty. */
  lemma HasFieldOfOne(name: string, rec: UserRecord, own: bool, k: Kind)
    ensures HasField(Fields([name], rec, own), k) <==> KindKey(k) == name && rec.Get(k) != []
  {
    FieldsOfOne(name, rec, own);
    KindNamedKey(k);
    var fs := Fields([name], rec, own);
    if fs != [] {
      assert HasField(fs, k) <==> fs[0].kind == k;
    }
  }

  /** A kind gets a field exactly when it was asked for and its list is non-empty. */
  lemma {:induction false} FieldsExactlyNonEmpty(names: seq<string>, rec: UserRecord, own: bool, k: Kind)
    ensures HasField(Fields(names, rec, own), k) <==> (KindKey(k) in names && rec.Get(k) != [])
    decreases |names|
  {
    if |names| > 0 {
      var head, tail := [names[0]], names[1..];
      assert names == head + tail;
      FieldsExactlyNonEmpty(tail, rec, own, k);
      FieldsConcat(head, tail, rec, own);
      HasFieldConcat(Fields(head, rec, own), Fields(tail, rec, own), k);
      HasFieldOfOne(names[0], rec, own, k);
      assert KindKey(k) in names <==> KindKey(k) == names[0] || KindKey(k) in tail;
    }
  }

  /** `"s"` unless the count is exactly one. */
  function Plural(n: nat): bool
  {
    n != 1
  }

  /** `get_userlog_embed_for_id(guild, user, own, event)`: the view of a user's log.
      Colour: green without fields, orange with fields, dark red in the staff view of a
      watched user. The staff view carries the watch/note line; "No logs recorded."
      is added exactly when there are no fields. */
  function LogView(store: Store, g: GuildId, u: UserId, own: bool, arg: EventArg): (v: View)
    ensures v.NotInSystem? <==> u !in LedgerOf(store, g)
    ensures v.Shown? ==>
              var rec := LedgerOf(store, g)[u];
              && v.fields == Fields(WantedNames(own, arg), rec, own)
              && (v.noLogs <==> v.fields == [])
              && (v.watchLine.None? <==> own)
              && (!own ==> v.watchLine.value == WatchLine(rec.watch, |rec.notes|, |rec.notes| != 1))
              && (v.colour == DarkRed <==> !own && rec.watch)
              && (v.colour == Green <==> v.fields == [] && (own || !rec.watch))
              && (v.colour == Orange <==> v.fields != [] && (own || !rec.watch))
  {
    var l := LedgerOf(store, g);
    if u !in l then NotInSystem
    else
      var rec := l[u];
      var fields := Fields(WantedNames(own, arg), rec, own);
      var base := if fields == [] then Green else Orange;
      if own then Shown(fields, base, None, fields == [])
      else
        var colour := if rec.watch then DarkRed else base;
        Shown(fields, colour, Some(WatchLine(rec.watch, |rec.notes|, Plural(|rec.notes|))), fields == [])
  }

  /** `fullinfo` passes a list of kinds; the view ignores it and shows the staff default. */
  lemma ListArgumentIgnored(store: Store, g: GuildId, u: UserId, names: seq<string>)
    ensures LogView(store, g, u, false, Listed(names)) == LogView(store, g, u, false, Named(""))
  {
  }

  /** The user's own view never shows tosses or notes and never names an issuer. */
  lemma {:induction false} OwnViewHidesStaffData(store: Store, g: GuildId, u: UserId)
    ensures var v := LogView(store, g, u, true, Named(""));
            v.Shown? ==>
              forall i :: 0 <= i < |v.fields| ==>
                && v.fields[i].kind != Tosses
                && v.fields[i].kind != Notes
                && forall j :: 0 <= j < |v.fields[i].entries| ==> v.fields[i].entries[j].issuer.None?
  {
    var v := LogView(store, g, u, true, Named(""));
    if v.Shown? {
      var rec := LedgerOf(store, g)[u];
      forall i | 0 <= i < |v.fields|
        ensures v.fields[i].kind != Tosses && v.fields[i].kind != Notes
      {
        FieldsExactlyNonEmpty(DefaultNames(true), rec, true, v.fields[i].kind);
        assert HasField(v.fields, v.fields[i].kind);
      }
    }
  }
}
